=== FILE: README.md ===
# Tumour and spheroid cell state machines

A Dafny model of the per-cell rules in three CompuCell3D simulations. In each
simulation, Python "steppables" rewrite a small record on every cell once per
Monte Carlo step (MCS). The lattice engine owns the actual volume and the
centre of mass; the steppables own the type, the target volume, the
constraint strengths and a few per-cell attributes.

- **Evolutionary stem/somatic tumour** (`CancerEvolutionDemoShort`). Stem and
  somatic cells carry two heritable traits: the stemness probability `Pstem`
  and the senescence budget `Rho`.
  - The mitosis steppable takes a census of the cells larger than 25. Each
    dividing somatic cell spends one generation.
  - Each dividing stem cell then attempts two pairwise mutations. Each one
    moves `|N(0, amplitude)|` of a trait from the stem cell to a partner,
    subject to a legality veto. A legal mutation conserves the population
    total of the trait.
  - The division partition halves the target volume and kills somatic cells
    whose countdown has run out. It differentiates a stem cell's offspring
    according to `Pstem`.
  - Growth follows one of three laws: exponential, pressure-limited or
    contact-inhibited.
  - Treatments kill cells on a schedule. They are constant, surgical, or one
    of three radiation schedules.
- **Aggressive oxygen spheroid** (`mitosis_O2`).
  - Cells sample oxygen at their rounded and clamped centre of mass. They
    become Hypoxic at 0.08 and Necrotic at 0.03, and a hypoxic cell recovers
    above 0.90.
  - Necrotic cells are frozen at their current volume.
  - The fate steppable grows each cell with capped, oxygen-dependent rates
    plus one uncapped unit.
  - From MCS 50 on, a cell divides with a probability looked up from its
    phenotype and oxygen band, and every living cell then gets a capped
    push.
  - An activity steppable nudges target volumes while the population is
    stagnant.
- **Clean oxygen spheroid** (`Simulation`).
  - One regulation steppable changes the phenotype on the thresholds 0.15
    and 0.4. It grows every non-necrotic cell and bounds the target volume
    to [10, 120].
  - Mitosis is gated by volume 55 and oxygen 0.15, with a population cap of
    5000 checked once per step.
  - A census runs every 50 steps.

Randomness and the oxygen field are inputs, which makes every rule a
deterministic function of the cells and these inputs:
- uniform draws, one per cell and decision;
- Gaussian magnitudes and partner choices, one per mutation attempt;
- the field, as a function from voxels to concentrations.

Modules:
- `EvoCells`, `EvoMitosis`, `EvoGrowth` and `EvoTreatment` hold the
  evolutionary model.
- `Spheroid` holds the record and division partition shared by both oxygen
  variants.
- `AggressiveFate` and `AggressiveMitosis` hold the aggressive variant.
- `CleanSpheroid` holds the clean variant.
- `Lattice` models the field read and `RealSeq` the sums behind conservation.
- `Wrappers` provides `Option`.

The source's own quirks are modelled as written, and each one is exhibited by
a lemma:
- The re-pick loop of the mutation draws a replacement partner from every
  dividing cell, not only from the dividing stem cells. A somatic cell can
  therefore receive stemness (`EvoMitosis.SomaticPartnerLeaksStemness`).
- The "Radiation Stem Protected" schedule runs its second pass over somatic
  cells again, so it never kills a stem cell
  (`EvoTreatment.StemProtectedSparesEveryStemCell`).
- The per-step pressure is not clamped at zero. The contact-inhibited law
  divides by zero at pressure -30 (modelled as `None`) and shrinks cells
  below it (`EvoGrowth.ContactIncrement`).
- Surgery also "kills" cells that are already necrotic and books them again
  (`EvoTreatment.ResectionMayOverbook`).
- In the aggressive variant, a normoxic cell at exactly oxygen 0.08 gets only
  the uncapped unit of growth (`AggressiveFate.GrowthAtThresholdIsUncapped`).
  The activity steppable also perturbs necrotic cells, so their frozen target
  volume does not survive it (`AggressiveMitosis.ActivityThawsNecroticCells`).
- In the clean variant, the cell cap is checked only before the division
  loop, so one step can take the population far past 5000
  (`CleanSpheroid.CapCanBeOvershot`).

## Model

| member | source | states |
|---|---|---|
| Lattice.RoundHalfEven | mitosis_O2/Simulation/mitosis_O2Steppables.py:78-80 | Python's `round`: the result is within one half of the input, and an exact tie goes to the even neighbour |
| Lattice.AxisIndex | Simulation/mitosis_O2Steppables.py:59-62 | the axis index lies in `[0, size-1]`; it is the rounded coordinate when that is in range, 0 below the range and `size-1` above it |
| Lattice.AxisIndexIsNearest | mitosis_O2/Simulation/mitosis_O2Steppables.py:78-80 | the clamped index is the valid index nearest to the rounded coordinate |
| Lattice.SampleVoxel | mitosis_O2/Simulation/mitosis_O2Steppables.py:184-187 | the sampled voxel always lies inside a non-empty lattice, and is the rounded centre of mass whenever that is inside; each axis is clamped on its own to the nearest valid index (`AxisIndex`) |
| EvoCells.Kill | CancerEvolutionDemoShort/Simulation/HeikonanoHUBDemoSteppables.py:621-628 | a killed cell becomes Necrotic with target volume 0 and strength 100; identity, traits, countdown, volume and position are untouched |
| EvoCells.Seed | CancerEvolutionDemoShort/Simulation/HeikonanoHUBDemoSteppables.py:79-95 | a seed cell gets target volume 25, strength 8, the initial traits, a countdown equal to its budget, and a pressure of 16 * (25 - volume) for a cell of volume at most 25 and 0 above, so it is never negative and is positive exactly when the cell is smaller than 25 |
| EvoMitosis.RosterOf | CancerEvolutionDemoShort/Simulation/HeikonanoHUBDemoSteppables.py:388-405 | each census list holds exactly the qualifying cells, each once, in cell-list order |
| EvoMitosis.Survey | CancerEvolutionDemoShort/Simulation/HeikonanoHUBDemoSteppables.py:394-405 | the countdown drops by exactly one if and only if the cell is somatic and larger than 25, otherwise it is unchanged; the recomputed pressure is positive exactly when `(tv - v)λ > 0`, that is, for λ > 0, exactly when the cell is below its target; nothing else changes |
| EvoMitosis.CensusSpendsOneGenerationPerSomaticDivision | CancerEvolutionDemoShort/Simulation/HeikonanoHUBDemoSteppables.py:399-405 | the total countdown drops by the number of dividing somatic cells, and by nothing else |
| EvoMitosis.CensusKeepsRosters | CancerEvolutionDemoShort/Simulation/HeikonanoHUBDemoSteppables.py:393-405 | the census does not change which cells are in any list |
| EvoMitosis.MutateStemness | CancerEvolutionDemoShort/Simulation/HeikonanoHUBDemoSteppables.py:429-478 | a mutation is accepted if and only if the draw fires, the donor's Pstem exceeds delta and the partner's is below 1-delta; if accepted, the donor loses delta, the partner gains it, both end inside the bounds and no other cell or field changes; if vetoed, nothing changes and nothing is counted |
| EvoMitosis.MutateSenescence | CancerEvolutionDemoShort/Simulation/HeikonanoHUBDemoSteppables.py:480-530 | a mutation is accepted if and only if the draw fires and the donor's Rho exceeds delta; if accepted, Rho moves by delta from donor to partner, both countdowns restart from the new Rho and nothing else changes; if vetoed, nothing changes |
| EvoMitosis.StemnessStaysInsideUnit | CancerEvolutionDemoShort/Simulation/HeikonanoHUBDemoSteppables.py:459-471 | an accepted stemness mutation with a positive magnitude leaves both cells' Pstem strictly inside (0, 1) |
| EvoMitosis.MutateStemnessConserves | CancerEvolutionDemoShort/Simulation/HeikonanoHUBDemoSteppables.py:459-471 | one stemness attempt keeps the population's total Pstem and leaves every Rho untouched |
| EvoMitosis.MutateSenescenceConserves | CancerEvolutionDemoShort/Simulation/HeikonanoHUBDemoSteppables.py:513-525 | one senescence attempt keeps the population's total Rho and leaves every Pstem untouched |
| EvoMitosis.MutationPass | CancerEvolutionDemoShort/Simulation/HeikonanoHUBDemoSteppables.py:429-530 | the loop over dividing stem cells accepts at most two mutations per cell, changes only traits and countdowns, and changes nothing when it accepts none |
| EvoMitosis.MutationPassConservesTraitTotals | CancerEvolutionDemoShort/Simulation/HeikonanoHUBDemoSteppables.py:429-530 | however many attempts are accepted or vetoed, the totals of Pstem and of Rho over the population are what they were |
| EvoMitosis.PickLoop | CancerEvolutionDemoShort/Simulation/HeikonanoHUBDemoSteppables.py:434-452 | the loop keeps the first pick unless it is the cell itself, and otherwise settles on the first re-pick that is not, meaning every earlier re-pick was the cell itself; its result is never the cell itself, and it fails exactly when every pick is the cell |
| EvoMitosis.ReachableIsPartnerPool | CancerEvolutionDemoShort/Simulation/HeikonanoHUBDemoSteppables.py:434-452 | for a dividing stem cell, a partner can come out of the pick loop if and only if it is in the re-pick pool and is not the cell itself; with several dividing stem cells that pool is every dividing cell, otherwise every stem cell |
| EvoMitosis.MutationPhase | CancerEvolutionDemoShort/Simulation/HeikonanoHUBDemoSteppables.py:426-530 | the phase accepts the population with one dividing stem cell and no other stem cell, and makes no attempt for it; otherwise it counts exactly the accepted attempts; either way it conserves both trait totals and accepts at most two mutations per dividing stem cell |
| EvoMitosis.PassCountsAcceptedAttempts | CancerEvolutionDemoShort/Simulation/HeikonanoHUBDemoSteppables.py:429-530 | the count of a pass equals the number of attempts whose draw fired and whose veto passed on the population as it stood when the attempt was made |
| EvoMitosis.LoneStemCellSkipsMutation | CancerEvolutionDemoShort/Simulation/HeikonanoHUBDemoSteppables.py:426-427 | a single dividing stem cell with no other stem cell is a valid input; nothing mutates and nothing is counted, even with both rates at one |
| EvoMitosis.SomaticPartnerLeaksStemness | CancerEvolutionDemoShort/Simulation/HeikonanoHUBDemoSteppables.py:434-440 | the re-pick can choose a dividing somatic cell, and then the stem cells' total Pstem falls |
| EvoMitosis.MitosisStep | CancerEvolutionDemoShort/Simulation/HeikonanoHUBDemoSteppables.py:388-534 | the step keeps types and volumes, sets each pressure to `2(tv - v)λ` and conserves both trait totals; in the unpairable case it is the census alone and books nothing; otherwise the global counter rises by exactly the number of accepted attempts; the per-step counter rises by the same amount, except on every tenth step, where it is reset to zero |
| EvoMitosis.Divide | CancerEvolutionDemoShort/Simulation/HeikonanoHUBDemoSteppables.py:541-577 | the parent's target volume is halved and shared equally with the child; a somatic parent past its countdown makes two necrotic cells with target volume 0 and strength 100; a stem parent's child is stem if and only if `u < Pstem - 0.5`, and the parent turns somatic if and only if `u < 0.5 - Pstem`; the neutral variant clones the parent |
| EvoMitosis.DivideAll | CancerEvolutionDemoShort/Simulation/HeikonanoHUBDemoSteppables.py:536-539 | every cell larger than 25 divides, of any type: the population grows by the size of the dividing roster, and the parents come first, followed by the children |
| EvoMitosis.EveryChildHasADividingParent | CancerEvolutionDemoShort/Simulation/HeikonanoHUBDemoSteppables.py:536-577 | every appended cell is the child record of the division of a cell larger than 25 |
| EvoMitosis.DivideAllConservesTargetVolume | CancerEvolutionDemoShort/Simulation/HeikonanoHUBDemoSteppables.py:536-577 | when no dividing somatic cell has run out of generations, the divisions keep the population's total target volume |
| EvoMitosis.NecroticCellsDivideToo | CancerEvolutionDemoShort/Simulation/HeikonanoHUBDemoSteppables.py:399-400 | a necrotic cell larger than 25 divides too, adding a second necrotic cell |
| EvoMitosis.StemDivisionBalance | CancerEvolutionDemoShort/Simulation/HeikonanoHUBDemoSteppables.py:557-574 | two stem offspring only when Pstem > 0.5 and none only when Pstem < 0.5; at Pstem = 0.5 the parent stays stem and the child is somatic |
| EvoGrowth.ContactIncrement | CancerEvolutionDemoShort/Simulation/HeikonanoHUBDemoSteppables.py:287-289 | the increment fails if and only if the pressure is -30, and otherwise multiplied by 1 + pressure/30 it gives 2, so it is 2 / (1 + pressure/30); it lies in (0, 2] for non-negative pressure, exceeds 2 between -30 and 0, and is negative below -30 |
| EvoGrowth.ContactIncrementAntitone | CancerEvolutionDemoShort/Simulation/HeikonanoHUBDemoSteppables.py:287-289 | above -30, a higher pressure never gives a larger increment |
| EvoGrowth.Grow | CancerEvolutionDemoShort/Simulation/HeikonanoHUBDemoSteppables.py:277-289 | only stem and somatic cells grow, and only their target volume changes; exponential growth adds 0.2 capped at 60; pressure-limited growth adds 0.2 exactly when the pressure is below 30; contact-inhibited growth adds exactly `ContactIncrement` of the stored pressure: at most 2 at non-negative pressure, more than 2 between -30 and 0, a shrink below -30, and a failure only at -30 |
| EvoGrowth.ExponentialPullsDownToCap | CancerEvolutionDemoShort/Simulation/HeikonanoHUBDemoSteppables.py:279-282 | the exponential law lowers a target volume above 60 to 60 |
| EvoGrowth.GrowAll | CancerEvolutionDemoShort/Simulation/HeikonanoHUBDemoSteppables.py:277-289 | the growth step succeeds if and only if every cell's growth succeeds, and then it is that growth applied cell by cell |
| EvoGrowth.GrowAllKeepsNecroticCount | CancerEvolutionDemoShort/Simulation/HeikonanoHUBDemoSteppables.py:277-289 | growth does not change the number of necrotic cells |
| EvoTreatment.KillPass | CancerEvolutionDemoShort/Simulation/HeikonanoHUBDemoSteppables.py:621-689 | one pass kills exactly the cells its rule hits and leaves the others alone; the counter rises by one per hit cell, already necrotic or not |
| EvoTreatment.KillPassBooksEveryDeath | CancerEvolutionDemoShort/Simulation/HeikonanoHUBDemoSteppables.py:621-636 | a pass over living cells raises the kill counter by exactly the number of new necrotic cells |
| EvoTreatment.ResectionMayOverbook | CancerEvolutionDemoShort/Simulation/HeikonanoHUBDemoSteppables.py:637-646 | surgery's counter is never below the number of new necrotic cells |
| EvoTreatment.ResectionBooksAlreadyNecroticCell | CancerEvolutionDemoShort/Simulation/HeikonanoHUBDemoSteppables.py:637-646 | surgery books an already necrotic cell left of the margin, so its counter can exceed the number of new necrotic cells |
| EvoTreatment.Treat | CancerEvolutionDemoShort/Simulation/HeikonanoHUBDemoSteppables.py:595-691 | each cell is either untouched or killed; "None" and chemotherapy change nothing; surgery acts only when mcs is a multiple of 2000 and radiation only on multiples of 1000; apart from surgery, every kill adds one necrotic cell and one to the counter; on its schedule, surgery kills exactly the cells left of `efficacy * 128` and counts one per such cell; constant killing kills a stem or somatic cell (somatic only, for the somatic mode) exactly when its draw is below `efficacy / 1000`; simple radiation kills a stem or somatic cell exactly when its draw is below the efficacy; quiescent-protected radiation uses the efficacy below pressure 30 and half of it otherwise |
| EvoTreatment.KilledCellsCollapse | CancerEvolutionDemoShort/Simulation/HeikonanoHUBDemoSteppables.py:621-689 | under every treatment, a changed cell is Necrotic with target volume 0 and strength 100 |
| EvoTreatment.StemProtectedSparesEveryStemCell | CancerEvolutionDemoShort/Simulation/HeikonanoHUBDemoSteppables.py:657-672 | the stem-protected schedule never kills a stem cell |
| EvoTreatment.StemProtectedSomaticDeath | CancerEvolutionDemoShort/Simulation/HeikonanoHUBDemoSteppables.py:657-672 | on schedule, a somatic cell dies if and only if its first draw is below the efficacy or its second draw is below half of it |
| Spheroid.Split | mitosis_O2/Simulation/mitosis_O2Steppables.py:217-225 | parent and child get equal target volumes that add up to the original, and the child has the parent's type |
| Spheroid.DivideSelected | mitosis_O2/Simulation/mitosis_O2Steppables.py:202-206 | the selected parents are halved in place, the others are unchanged, and one child per selected cell is appended |
| Spheroid.EveryChildHasAParent | mitosis_O2/Simulation/mitosis_O2Steppables.py:202-206 | every appended cell is the clone of a selected cell |
| Spheroid.DivisionConservesTargetVolume | Simulation/mitosis_O2Steppables.py:114-118 | any set of divisions keeps the total target volume of the population |
| Spheroid.DivisionKeepsUnselectedKind | Simulation/mitosis_O2Steppables.py:101-118 | a phenotype with no dividing cell keeps its count through the divisions |
| Spheroid.CountKindIsMultiplicity | Simulation/mitosis_O2Steppables.py:128-135 | the per-phenotype counter equals that phenotype's multiplicity in the population |
| Spheroid.CountsPartition | Simulation/mitosis_O2Steppables.py:128-135 | the four phenotype counts add up to the population size |
| AggressiveFate.ToNormoxic | mitosis_O2/Simulation/mitosis_O2Steppables.py:111-115 | recovery sets the type to Normoxic and the strengths to 5 and 1.5, and changes nothing else |
| AggressiveFate.ToHypoxic | mitosis_O2/Simulation/mitosis_O2Steppables.py:117-123 | becoming hypoxic shrinks the target volume by 5% but never below 15 |
| AggressiveFate.ToNecrotic | mitosis_O2/Simulation/mitosis_O2Steppables.py:125-134 | necrosis sets both strengths to 50 and freezes the target volume at the current actual volume |
| AggressiveFate.Transition | mitosis_O2/Simulation/mitosis_O2Steppables.py:84-101 | a normoxic cell goes necrotic below 0.03 and hypoxic below 0.08; a hypoxic cell recovers above 0.90 and goes necrotic below 0.03; otherwise the cell stays as it is |
| AggressiveFate.Growth | mitosis_O2/Simulation/mitosis_O2Steppables.py:142-161 | a normoxic cell above 0.08 gets `min(80, tv+30)`; a hypoxic cell above 0.03 gets `min(64, tv+2)`; every living cell then gets one more unit; necrotic cells are unchanged |
| AggressiveFate.FateStep | mitosis_O2/Simulation/mitosis_O2Steppables.py:73-104 | necrotic and medium cells are skipped; a newly necrotic cell is frozen at its volume; a living cell is moved by the transition and then grown with the oxygen-band growth of its new phenotype; a living cell that started at or below 80 ends at or below 81 |
| AggressiveFate.FateFollowsTable | mitosis_O2/Simulation/mitosis_O2Steppables.py:84-101 | the new phenotype is the one the phenotype-by-band table gives |
| AggressiveFate.TransitionsAreExactlyAllowed | mitosis_O2/Simulation/mitosis_O2Steppables.py:84-101 | every step takes an allowed edge, nothing leaves the necrotic state, and every allowed edge is taken at some oxygen level |
| AggressiveFate.FateTickKeepsNecrotic | mitosis_O2/Simulation/mitosis_O2Steppables.py:97-101 | no fate step lowers the number of necrotic cells |
| AggressiveFate.GrowthAtThresholdIsUncapped | mitosis_O2/Simulation/mitosis_O2Steppables.py:149-161 | at exactly 0.08 a normoxic cell gets the uncapped unit only, so its target volume can pass 80 |
| AggressiveMitosis.DivisionProbability | mitosis_O2/Simulation/mitosis_O2Steppables.py:172-200 | the probability is 0 before MCS 50, for cells that are not living and for volumes up to 25; for normoxic cells it is 0.99 above 0.3, 0.75 above 0.15, 0.675 above 0.1, 0.6 above 0.08 and 0 at or below 0.08; a hypoxic cell gets 0.02 if and only if o2 > 0.07, and 0 otherwise |
| AggressiveMitosis.NormoxicProbabilityMonotone | mitosis_O2/Simulation/mitosis_O2Steppables.py:190-198 | a normoxic cell's probability never decreases with oxygen |
| AggressiveMitosis.Push | mitosis_O2/Simulation/mitosis_O2Steppables.py:208-211 | each living cell gets `min(tv + 4.5, 80)`; other cells are unchanged |
| AggressiveMitosis.MitosisStep | mitosis_O2/Simulation/mitosis_O2Steppables.py:170-211 | before MCS 50 nothing changes; afterwards each selected cell is halved in place, one child per selected cell is appended, and every cell then gets the capped push; no cell is lost, non-living cells are untouched, types are kept, and every living cell ends at or below 80 |
| AggressiveMitosis.IneligibleNeverSelected | mitosis_O2/Simulation/mitosis_O2Steppables.py:172-183 | necrotic cells, medium, cells of volume up to 25 and every cell before MCS 50 never divide |
| AggressiveMitosis.MitosisAddsOneCellPerSelected | mitosis_O2/Simulation/mitosis_O2Steppables.py:202-206 | from MCS 50 on, the population grows by exactly the number of selected cells |
| AggressiveMitosis.MitosisKeepsNecroticCount | mitosis_O2/Simulation/mitosis_O2Steppables.py:179-211 | the mitosis steppable does not change the number of necrotic cells |
| AggressiveMitosis.Perturb | mitosis_O2/Simulation/mitosis_O2Steppables.py:300-306 | a non-medium target volume ends inside [20, 80], and moves by less than 0.05 when it starts well inside; medium is untouched |
| AggressiveMitosis.ActivityStep | mitosis_O2/Simulation/mitosis_O2Steppables.py:293-308 | when the count moved by less than 2, every cell is perturbed by its own draw: a non-medium cell ends inside [20, 80], and one that starts well inside moves by less than 0.05; otherwise nothing changes; the count is remembered either way |
| AggressiveMitosis.ActivityThawsNecroticCells | mitosis_O2/Simulation/mitosis_O2Steppables.py:299-306 | the activity steppable moves a necrotic cell's frozen target volume |
| CleanSpheroid.Bounded | Simulation/mitosis_O2Steppables.py:22-23 | the clamp returns `low` below the range, `high` above it and the value inside it; with `low <= high` the result lies in `[low, high]` |
| CleanSpheroid.BoundedIdempotent | Simulation/mitosis_O2Steppables.py:22-23 | clamping twice is the same as clamping once |
| CleanSpheroid.BoundedMonotone | Simulation/mitosis_O2Steppables.py:22-23 | the clamp preserves order |
| CleanSpheroid.SeedCell | Simulation/mitosis_O2Steppables.py:30-41 | the seed cell is normoxic with target volume 40 and strengths 5 and 2 |
| CleanSpheroid.Transition | Simulation/mitosis_O2Steppables.py:64-72 | a normoxic cell goes necrotic if and only if o2 < 0.15 and hypoxic if and only if 0.15 <= o2 < 0.4; a hypoxic cell recovers if and only if o2 >= 0.4 and goes necrotic if and only if o2 < 0.15; necrotic cells do not change |
| CleanSpheroid.Increment | Simulation/mitosis_O2Steppables.py:75-79 | the growth is 2 when o2 >= 0.4, 0.5 when 0.15 <= o2 < 0.4, and 0 exactly when o2 < 0.15 |
| CleanSpheroid.Regulate | Simulation/mitosis_O2Steppables.py:55-80 | necrotic and medium cells are untouched; a cell that turns necrotic keeps its target volume; a living cell's target is its old target plus the increment, clamped to [10, 120], so it is grown by exactly the increment when that fits |
| CleanSpheroid.FateDependsOnlyOnBand | Simulation/mitosis_O2Steppables.py:64-72 | a living cell's new phenotype depends only on the oxygen band, not on its previous phenotype |
| CleanSpheroid.RegulationMonotoneInOxygen | Simulation/mitosis_O2Steppables.py:74-80 | for cells that stay alive, more oxygen never gives a smaller target volume |
| CleanSpheroid.RegulationStep | Simulation/mitosis_O2Steppables.py:49-80 | without a field nothing changes; with one, each cell is regulated at its own oxygen, necrotic cells are untouched and living cells end inside [10, 120] |
| CleanSpheroid.RegulationKeepsNecrotic | Simulation/mitosis_O2Steppables.py:64-75 | no regulation step lowers the number of necrotic cells |
| CleanSpheroid.MitosisStep | Simulation/mitosis_O2Steppables.py:90-118 | at or above 5000 cells nothing changes; below the cap each selected cell is halved in place, the others stay, and one child per selected cell is appended after the old list (the children are the parents' halves, by `Children`); the population at most doubles; non-living cells are untouched |
| CleanSpheroid.MitosisConserves | Simulation/mitosis_O2Steppables.py:90-118 | mitosis keeps the total target volume and the numbers of necrotic and medium cells |
| CleanSpheroid.CapCanBeOvershot | Simulation/mitosis_O2Steppables.py:96-112 | just below the cap, one step can nearly double the population, far past 5000 |
| CleanSpheroid.Tally | Simulation/mitosis_O2Steppables.py:128-135 | N + H + D never exceeds the number of cells, and falls short of it by exactly the number of medium entries (none in a real run, as the cell list never yields the medium) |
| CleanSpheroid.TallyMatchesCounts | Simulation/mitosis_O2Steppables.py:128-135 | each census counter equals the number of cells of its phenotype |
| CleanSpheroid.Analysis | Simulation/mitosis_O2Steppables.py:125-135 | the census reports exactly on multiples of 50, and what it reports is the number of normoxic, hypoxic and necrotic cells, which together never exceed the population |

## Left out

- Plot windows, the steering panel, the busy-wait for a simulation type, and
  every `print`. These are UI and telemetry. The steering values (growth law,
  treatment, efficacy, mutation rates and amplitudes, initial traits) are
  parameters of the model.
- Seed-cell voxel painting, oxygen field reinitialisation and the diffusion
  solver. These are lattice and PDE-engine side effects; the field is an
  input.
- The analysis steppable of the aggressive variant. It prints counts, a
  total volume and a radius computed with `sqrt`. The initial target surface
  of the clean variant uses `pi` and fractional powers. Both are
  transcendental float numerics, and only the clean variant's counts are
  modelled.
- The geometric split and `clone_parent_2_child`. These are engine
  primitives; the model treats the child as a copy of the parent record.
- The random number generator. Draws, Gaussian magnitudes and partner
  choices are inputs. The model constrains them only as the source
  guarantees: draws lie in [0, 1), magnitudes are non-negative, and the
  partner is one the re-pick loop can reach. With one dividing stem cell
  and no other stem cell, the draws are not constrained, because the step
  never uses them. The exact
  consumption order of the Python random stream is not modelled.
- The broad `try/except` blocks. The aggressive steppables assume the field
  is attached; the clean variant's missing-field paths are modelled with
  `Option`.
- Floating-point rounding. Volumes, traits and probabilities are reals. The
  tie-breaking of Python's `round` is modelled; binary representation of
  thresholds such as 0.08 is not.
- Lineage and mutation-history lists. They are written but never read, and
  most of their updates are commented out in the source.
- The steppable frequencies (activity every 10 steps, census every 50) are
  the callers' scheduling. `CleanSpheroid.Analysis` models the census's own
  multiple-of-50 test.
- Framework plumbing: `persistent_globals.py`, VTK output, `RunSpecs.py`
  and the steppable registration files.
- EvoMitosis.PickLoop: the loop of the source ends almost surely but not
  within a fixed number of re-picks. The model takes a finite list of
  re-picks and yields no partner when they run out. The mutation draws
  carry the partner the loop settled on, and `ReachableIsPartnerPool`
  characterises those partners.
- EvoMitosis.DivideAll: the division of the whole roster is stated for
  total target volume only when no somatic parent dies. With deaths, the
  two necrotic records have target volume 0, so the total falls.
- EvoMitosis.Divide: in the neutral variant the model lets the child copy
  the parent's type. The source's `Somatic_Flag` is a local variable that
  nothing reads.
- EvoTreatment.Treat: constant killing is modelled with the reduced
  efficacy `efficacy / 1000`. The draws of the non-targeted cells are
  ignored rather than not drawn.

=== FILE: aggressive_fate.dfy ===
/** The fate steppable of the aggressive oxygen-driven spheroid: every
    non-medium cell samples oxygen at its centre of mass, changes phenotype
    on the thresholds 0.03 (necrotic), 0.08 (hypoxic) and 0.90 (recovery),
    and then grows. Necrotic cells are skipped entirely. */
module AggressiveFate {
  import opened Lattice
  import opened Spheroid

  const TvMin: real := 15.0
  const TvMax: real := 80.0
  const GrowRateNormoxic: real := 15.0
  const GrowRateHypoxic: real := 1.0
  const O2Recovery: real := 0.90
  const O2Hypoxic: real := 0.08
  const O2Necrotic: real := 0.03
  /** Constraint strengths of living and of necrotic cells. */
  const LivingLambdaVolume: real := 5.0
  const LivingLambdaSurface: real := 1.5
  const NecroticLambda: real := 50.0
  /** Fraction of the target volume kept on becoming hypoxic. */
  const HypoxicShrink: real := 0.95
  /** Growth every living cell receives on every step. */
  const ForcedGrowth: real := 1.0

  function ToNormoxic(c: Cell): (r: Cell)
    ensures r.kind == Normoxic
    ensures r.lambdaVolume == 5.0 && r.lambdaSurface == 1.5
    ensures r == c.(kind := Normoxic, lambdaVolume := r.lambdaVolume, lambdaSurface := r.lambdaSurface)
  {
    c.(kind := Normoxic, lambdaVolume := LivingLambdaVolume, lambdaSurface := LivingLambdaSurface)
  }

  /** Becoming hypoxic shrinks the target volume by 5%, but never below the
      minimum (and never raises a target volume that is already above it). */
  function ToHypoxic(c: Cell): (r: Cell)
    ensures r.kind == Hypoxic
    ensures r.lambdaVolume == 5.0 && r.lambdaSurface == 1.5
    ensures r.targetVolume >= TvMin
    ensures c.targetVolume >= TvMin ==> r.targetVolume <= c.targetVolume
    ensures c.targetVolume * HypoxicShrink >= TvMin ==> r.targetVolume == c.targetVolume * HypoxicShrink
    ensures c.targetVolume * HypoxicShrink <= TvMin ==> r.targetVolume == TvMin
    ensures r == c.(kind := Hypoxic, targetVolume := r.targetVolume, lambdaVolume := r.lambdaVolume, lambdaSurface := r.lambdaSurface)
  {
    var shrunk := c.targetVolume * HypoxicShrink;
    c.(kind := Hypoxic, lambdaVolume := LivingLambdaVolume, lambdaSurface := LivingLambdaSurface,
       targetVolume := if TvMin > shrunk then TvMin else shrunk)
  }

  /** Becoming necrotic freezes the cell: both constraint strengths go to 50
      and the target volume becomes the actual volume. */
  function ToNecrotic(c: Cell): (r: Cell)
    ensures r.kind == Necrotic
    ensures r.lambdaVolume == 50.0 && r.lambdaSurface == 50.0
    ensures r.targetVolume == c.volume
    ensures r.volume == c.volume && r.com == c.com
  {
    c.(kind := Necrotic, lambdaVolume := NecroticLambda, lambdaSurface := NecroticLambda, targetVolume := c.volume)
  }

  /** The phenotype change of one step. */
  function Transition(c: Cell, o2: real): (r: Cell)
    ensures c.kind == Normoxic && o2 < O2Necrotic ==> r == ToNecrotic(c)
    ensures c.kind == Normoxic && O2Necrotic <= o2 < O2Hypoxic ==> r == ToHypoxic(c)
    ensures c.kind == Normoxic && o2 >= O2Hypoxic ==> r == c
    ensures c.kind == Hypoxic && o2 > O2Recovery ==> r == ToNormoxic(c)
    ensures c.kind == Hypoxic && o2 < O2Necrotic ==> r == ToNecrotic(c)
    ensures c.kind == Hypoxic && O2Necrotic <= o2 <= O2Recovery ==> r == c
    ensures !Living(c) ==> r == c
  {
    match c.kind
    case Normoxic =>
      if o2 < O2Necrotic then ToNecrotic(c)
      else if o2 < O2Hypoxic then ToHypoxic(c)
      else c
    case Hypoxic =>
      if o2 > O2Recovery then ToNormoxic(c)
      else if o2 < O2Necrotic then ToNecrotic(c)
      else c
    case _ => c
  }

  /** The growth of one step. A normoxic cell in good oxygen grows by 30 up
      to 80, a hypoxic cell above the necrotic threshold by 2 up to 64; then
      every living cell gets one more unit, without a cap. Necrotic and medium
      cells do not change. */
  function Growth(c: Cell, o2: real): (r: Cell)
    ensures r == c.(targetVolume := r.targetVolume)
    ensures !Living(c) ==> r == c
    ensures c.kind == Normoxic && o2 > O2Hypoxic ==>
              && r.targetVolume <= TvMax + ForcedGrowth
              && (c.targetVolume <= TvMax - 30.0 ==> r.targetVolume == c.targetVolume + 31.0)
              && (c.targetVolume >= TvMax - 30.0 ==> r.targetVolume == TvMax + ForcedGrowth)
    ensures c.kind == Hypoxic && o2 > O2Necrotic ==>
              && r.targetVolume <= 0.8 * TvMax + ForcedGrowth
              && (c.targetVolume <= 0.8 * TvMax - 2.0 ==> r.targetVolume == c.targetVolume + 3.0)
              && (c.targetVolume >= 0.8 * TvMax - 2.0 ==> r.targetVolume == 0.8 * TvMax + ForcedGrowth)
    ensures (c.kind == Normoxic && o2 <= O2Hypoxic) || (c.kind == Hypoxic && o2 <= O2Necrotic) ==>
              r.targetVolume == c.targetVolume + ForcedGrowth
  {
    if c.kind == Necrotic then c
    else
      var banded :=
        if c.kind == Normoxic && o2 > O2Hypoxic then
          var g := c.targetVolume + GrowRateNormoxic * 2.0;
          c.(targetVolume := if TvMax < g then TvMax else g)
        else if c.kind == Hypoxic && o2 > O2Necrotic then
          var g := c.targetVolume + GrowRateHypoxic * 2.0;
          c.(targetVolume := if TvMax * 0.8 < g then TvMax * 0.8 else g)
        else c;
      if banded.kind != Necrotic && banded.kind != Medium then
        banded.(targetVolume := banded.targetVolume + ForcedGrowth)
      else banded
  }

  /** One cell's visit by the fate steppable. */
  function FateStep(c: Cell, o2: real): (r: Cell)
    ensures c.kind == Necrotic ==> r == c
    ensures c.kind == Medium ==> r == c
    ensures r.volume == c.volume && r.com == c.com
    ensures r.kind == Necrotic && c.kind != Necrotic ==>
              r.targetVolume == c.volume && r.lambdaVolume == 50.0 && r.lambdaSurface == 50.0
    ensures Living(r) && c.targetVolume <= TvMax ==> r.targetVolume <= TvMax + ForcedGrowth
    ensures Living(c) ==> r == Growth(Transition(c, o2), o2)
  {
    if c.kind == Medium || c.kind == Necrotic then c
    else Growth(Transition(c, o2), o2)
  }

  // ---------------------------------------------------------------------
  // The transition table, stated independently
  // ---------------------------------------------------------------------

  /** Oxygen bands delimited by the three thresholds. */
  datatype Band = Anoxic | Low | Moderate | Rich

  function BandOf(o2: real): Band
  {
    if o2 < O2Necrotic then Anoxic
    else if o2 < O2Hypoxic then Low
    else if o2 <= O2Recovery then Moderate
    else Rich
  }

  /** The phenotype a cell of phenotype `k` has after a step in band `b`. */
  function Next(k: Phenotype, b: Band): Phenotype
  {
    match (k, b)
    case (Normoxic, Anoxic) => Necrotic
    case (Normoxic, Low) => Hypoxic
    case (Normoxic, _) => Normoxic
    case (Hypoxic, Anoxic) => Necrotic
    case (Hypoxic, Rich) => Normoxic
    case (Hypoxic, _) => Hypoxic
    case (k, _) => k
  }

  /** The steppable follows the table in every band. */
  lemma FateFollowsTable(c: Cell, o2: real)
    ensures FateStep(c, o2).kind == Next(c.kind, BandOf(o2))
  {
  }

  /** The phenotype changes the model allows: a normoxic cell can go
      straight to necrotic, a hypoxic cell can recover, and nothing leaves
      the necrotic state or enters or leaves the medium. */
  predicate Allowed(from: Phenotype, to: Phenotype)
  {
    || from == to
    || (from == Normoxic && (to == Hypoxic || to == Necrotic))
    || (from == Hypoxic && (to == Normoxic || to == Necrotic))
  }

  /** Every step takes an allowed edge, and every allowed edge is taken at
      some oxygen level. */
  lemma TransitionsAreExactlyAllowed(c: Cell, to: Phenotype)
    ensures forall o2: real :: Allowed(c.kind, FateStep(c, o2).kind)
    ensures Allowed(c.kind, to) ==> exists o2: real :: FateStep(c, o2).kind == to
  {
    if Allowed(c.kind, to) {
      var o2 :=
        if to == Necrotic then 0.0
        else if to == Hypoxic then 0.05
        else if to == Normoxic then 1.0
        else 0.5;
      assert FateStep(c, o2).kind == to;
    }
  }

  /** The fate steppable over the cell list, each cell reading the same field
      snapshot at its own (rounded, clamped) centre of mass. */
  function FateTick(pop: seq<Cell>, field: Field, dims: Dims): (r: seq<Cell>)
    ensures |r| == |pop|
    ensures forall i :: 0 <= i < |pop| ==> r[i] == FateStep(pop[i], Sample(field, pop[i].com, dims))
  {
    if |pop| == 0 then [] else [FateStep(pop[0], Sample(field, pop[0].com, dims))] + FateTick(pop[1..], field, dims)
  }

  /** Necrosis is absorbing at population level: no step lowers the number
      of necrotic cells. */
  lemma {:induction false} FateTickKeepsNecrotic(pop: seq<Cell>, field: Field, dims: Dims)
    ensures CountKind(FateTick(pop, field, dims), Necrotic) >= CountKind(pop, Necrotic)
  {
    if |pop| > 0 {
      assert FateTick(pop, field, dims)[1..] == FateTick(pop[1..], field, dims);
      FateTickKeepsNecrotic(pop[1..], field, dims);
    }
  }

  /** At exactly the hypoxic threshold a normoxic cell neither changes type
      nor gets the capped growth, so the uncapped extra unit is all it gets:
      its target volume can climb past the cap. */
  lemma GrowthAtThresholdIsUncapped(c: Cell)
    requires c.kind == Normoxic && c.targetVolume >= TvMax
    ensures FateStep(c, O2Hypoxic).targetVolume == c.targetVolume + ForcedGrowth > TvMax
  {
  }
}

=== FILE: aggressive_mitosis.dfy ===
/** The mitosis and activity steppables of the aggressive oxygen-driven
    spheroid. From step 50 on, every living cell larger than 25 divides with
    a probability looked up from its phenotype and the oxygen band it sits
    in; afterwards every living cell gets a capped growth push. The activity
    steppable perturbs target volumes slightly while the population is
    stagnant and clamps them into [20, 80]. */
module AggressiveMitosis {
  import opened Lattice
  import opened Spheroid
  import opened RealSeq
  import AggressiveFate

  /** No division happens before this step. */
  const EarliestDivision: nat := 50
  const DivisionVolume: real := 25.0
  const DivProbHigh: real := 0.99
  const DivProbMedium: real := 0.75
  const DivProbLow: real := 0.05
  /** Growth push after the divisions, and its cap. */
  const PushGrowth: real := 15.0 * 0.3
  const TvMax: real := 80.0

  /** Probability that a cell divides on this step. Floating-point rounding
      of the products is not modelled. */
  function DivisionProbability(c: Cell, o2: real, mcs: nat): (p: real)
    ensures 0.0 <= p <= DivProbHigh
    ensures mcs < EarliestDivision || !Living(c) || c.volume <= DivisionVolume ==> p == 0.0
    ensures c.kind == Normoxic && o2 <= 0.08 ==> p == 0.0
    ensures c.kind == Normoxic && o2 > 0.08 && mcs >= EarliestDivision && c.volume > DivisionVolume ==> p >= DivProbMedium * 0.8
    ensures c.kind == Normoxic && o2 > 0.3 && mcs >= EarliestDivision && c.volume > DivisionVolume ==> p == DivProbHigh
    ensures c.kind == Normoxic && 0.15 < o2 <= 0.3 && mcs >= EarliestDivision && c.volume > DivisionVolume ==> p == 0.75
    ensures c.kind == Normoxic && 0.1 < o2 <= 0.15 && mcs >= EarliestDivision && c.volume > DivisionVolume ==> p == 0.675
    ensures c.kind == Normoxic && 0.08 < o2 <= 0.1 && mcs >= EarliestDivision && c.volume > DivisionVolume ==> p == 0.6
    ensures c.kind == Hypoxic && mcs >= EarliestDivision && c.volume > DivisionVolume ==>
              (p == DivProbLow * 0.4 <==> o2 > 0.07) && (p == 0.0 <==> o2 <= 0.07)
  {
    if mcs < EarliestDivision || c.kind == Necrotic || c.kind == Medium || c.volume <= DivisionVolume then 0.0
    else if c.kind == Normoxic then
      if o2 > 0.3 then DivProbHigh
      else if o2 > 0.15 then DivProbMedium
      else if o2 > 0.1 then DivProbMedium * 0.9
      else if o2 > 0.08 then DivProbMedium * 0.8
      else 0.0
    else if c.kind == Hypoxic && o2 > 0.07 then DivProbLow * 0.4
    else 0.0
  }

  /** Better oxygen never lowers a normoxic cell's division probability
      across the bands 0.08 / 0.1 / 0.15 / 0.3. */
  lemma NormoxicProbabilityMonotone(c: Cell, o2: real, o2': real, mcs: nat)
    requires c.kind == Normoxic && o2 <= o2'
    ensures DivisionProbability(c, o2, mcs) <= DivisionProbability(c, o2', mcs)
  {
  }

  /** The capped growth push every living cell gets after the divisions. */
  function Push(c: Cell): (r: Cell)
    ensures r == c.(targetVolume := r.targetVolume)
    ensures !Living(c) ==> r == c
    ensures Living(c) ==> r.targetVolume <= TvMax
    ensures Living(c) && c.targetVolume <= TvMax - PushGrowth ==> r.targetVolume == c.targetVolume + PushGrowth
    ensures Living(c) && c.targetVolume >= TvMax - PushGrowth ==> r.targetVolume == TvMax
  {
    if c.kind != Medium && c.kind != Necrotic then
      var g := c.targetVolume + PushGrowth;
      c.(targetVolume := if g < TvMax then g else TvMax)
    else c
  }

  function PushAll(pop: seq<Cell>): (r: seq<Cell>)
    ensures |r| == |pop|
    ensures forall i :: 0 <= i < |pop| ==> r[i] == Push(pop[i])
  {
    if |pop| == 0 then [] else [Push(pop[0])] + PushAll(pop[1..])
  }

  /** Pushing a population and then dropping its first `n` cells is the same
      as pushing what is left. */
  lemma PushAllSuffix(pop: seq<Cell>, n: nat)
    requires n <= |pop|
    ensures PushAll(pop)[n..] == PushAll(pop[n..])
  {
    var a := PushAll(pop);
    var b := PushAll(pop[n..]);
    assert |a[n..]| == |b|;
    forall k | 0 <= k < |b|
      ensures a[n..][k] == b[k]
    {
      assert a[n..][k] == a[n + k] == Push(pop[n + k]);
      assert b[k] == Push(pop[n..][k]);
    }
  }

  /** A uniform draw from [0, 1). */
  predicate Uniform(u: real)
  {
    0.0 <= u < 1.0
  }

  /** The division decision of every cell: its draw below its probability. */
  function Selection(pop: seq<Cell>, field: Field, dims: Dims, mcs: nat, draws: seq<real>): (sel: seq<bool>)
    requires |draws| == |pop|
    ensures |sel| == |pop|
    ensures forall i :: 0 <= i < |pop| ==>
              sel[i] == (draws[i] < DivisionProbability(pop[i], Sample(field, pop[i].com, dims), mcs))
  {
    seq(|pop|, i requires 0 <= i < |pop| => draws[i] < DivisionProbability(pop[i], Sample(field, pop[i].com, dims), mcs))
  }

  /** One run of the mitosis steppable. Before step 50 nothing happens.
      Afterwards the selected cells divide (parents halved in place,
      children appended) and every living cell, children included, gets the
      capped push. */
  function MitosisStep(pop: seq<Cell>, field: Field, dims: Dims, mcs: nat, draws: seq<real>): (r: seq<Cell>)
    requires |draws| == |pop| && forall i :: 0 <= i < |pop| ==> Uniform(draws[i])
    ensures mcs < EarliestDivision ==> r == pop
    ensures |r| >= |pop|
    ensures mcs >= EarliestDivision ==> forall j :: 0 <= j < |r| && Living(r[j]) ==> r[j].targetVolume <= TvMax
    ensures forall i :: 0 <= i < |pop| && !Living(pop[i]) ==> r[i] == pop[i]
    ensures forall i :: 0 <= i < |pop| ==> r[i].kind == pop[i].kind
    ensures mcs >= EarliestDivision ==>
              var sel := Selection(pop, field, dims, mcs, draws);
              && |r| == |pop| + CountTrue(sel)
              && (forall i :: 0 <= i < |pop| ==> r[i] == Push(if sel[i] then Split(pop[i]).parent else pop[i]))
              && r[|pop|..] == PushAll(Children(pop, sel))
  {
    if mcs < EarliestDivision then pop
    else
      var sel := Selection(pop, field, dims, mcs, draws);
      IneligibleNeverSelected(pop, field, dims, mcs, draws);
      var divided := DivideSelected(pop, sel);
      PushAllSuffix(divided, |pop|);
      PushAll(divided)
  }

  /** A cell that does not meet the division criteria is never selected:
      no draw from [0, 1) falls below a zero probability. */
  lemma IneligibleNeverSelected(pop: seq<Cell>, field: Field, dims: Dims, mcs: nat, draws: seq<real>)
    requires |draws| == |pop| && forall i :: 0 <= i < |pop| ==> Uniform(draws[i])
    ensures forall i :: 0 <= i < |pop| && (mcs < EarliestDivision || !Living(pop[i]) || pop[i].volume <= DivisionVolume) ==>
              !Selection(pop, field, dims, mcs, draws)[i]
  {
  }

  /** From step 50 on, the population grows by exactly the number of
      selected cells. */
  lemma MitosisAddsOneCellPerSelected(pop: seq<Cell>, field: Field, dims: Dims, mcs: nat, draws: seq<real>)
    requires |draws| == |pop| && forall i :: 0 <= i < |pop| ==> Uniform(draws[i])
    requires mcs >= EarliestDivision
    ensures |MitosisStep(pop, field, dims, mcs, draws)| == |pop| + CountTrue(Selection(pop, field, dims, mcs, draws))
  {
  }

  /** Necrotic cells never divide, so the mitosis steppable leaves the
      number of necrotic cells unchanged. */
  lemma MitosisKeepsNecroticCount(pop: seq<Cell>, field: Field, dims: Dims, mcs: nat, draws: seq<real>)
    requires |draws| == |pop| && forall i :: 0 <= i < |pop| ==> Uniform(draws[i])
    ensures CountKind(MitosisStep(pop, field, dims, mcs, draws), Necrotic) == CountKind(pop, Necrotic)
  {
    if mcs >= EarliestDivision {
      var sel := Selection(pop, field, dims, mcs, draws);
      IneligibleNeverSelected(pop, field, dims, mcs, draws);
      DivisionKeepsUnselectedKind(pop, sel, Necrotic);
      var divided := DivideSelected(pop, sel);
      CountKindOfSameKinds(PushAll(divided), divided, Necrotic);
    }
  }

  // ---------------------------------------------------------------------
  // Activity forcer
  // ---------------------------------------------------------------------

  const ActivityMin: real := 20.0
  const ActivityMax: real := 80.0
  const PerturbAmplitude: real := 0.1

  /** Perturb a non-medium target volume by `0.1 * (u - 0.5)` and clamp it
      into [20, 80]. */
  function Perturb(c: Cell, u: real): (r: Cell)
    ensures r == c.(targetVolume := r.targetVolume)
    ensures c.kind == Medium ==> r == c
    ensures c.kind != Medium ==> ActivityMin <= r.targetVolume <= ActivityMax
    ensures c.kind != Medium && Uniform(u) && ActivityMin + 0.05 <= c.targetVolume <= ActivityMax - 0.05 ==>
              c.targetVolume - 0.05 <= r.targetVolume < c.targetVolume + 0.05
  {
    if c.kind == Medium then c
    else
      var t := c.targetVolume + PerturbAmplitude * (u - 0.5);
      var upper := if t < ActivityMax then t else ActivityMax;
      c.(targetVolume := if ActivityMin > upper then ActivityMin else upper)
  }

  /** The activity steppable: when the cell count moved by less than two
      since its last run, every non-medium cell is perturbed; the count is
      remembered either way. */
  function ActivityStep(pop: seq<Cell>, lastCount: int, draws: seq<real>): (r: (seq<Cell>, int))
    requires |draws| == |pop|
    ensures r.1 == |pop|
    ensures |r.0| == |pop|
    ensures forall i :: 0 <= i < |pop| ==> r.0[i].kind == pop[i].kind
    ensures forall i :: 0 <= i < |pop| && pop[i].kind == Medium ==> r.0[i] == pop[i]
    ensures Stagnant(|pop|, lastCount) ==>
              forall i :: 0 <= i < |pop| && pop[i].kind != Medium ==> ActivityMin <= r.0[i].targetVolume <= ActivityMax
    ensures !Stagnant(|pop|, lastCount) ==> r.0 == pop
    ensures Stagnant(|pop|, lastCount) ==> forall i :: 0 <= i < |pop| ==> r.0[i] == Perturb(pop[i], draws[i])
    ensures Stagnant(|pop|, lastCount) ==>
              forall i :: 0 <= i < |pop| && pop[i].kind != Medium && Uniform(draws[i])
                          && ActivityMin + 0.05 <= pop[i].targetVolume <= ActivityMax - 0.05 ==>
                pop[i].targetVolume - 0.05 <= r.0[i].targetVolume < pop[i].targetVolume + 0.05
  {
    if Stagnant(|pop|, lastCount) then
      (seq(|pop|, i requires 0 <= i < |pop| => Perturb(pop[i], draws[i])), |pop|)
    else (pop, |pop|)
  }

  predicate Stagnant(count: int, lastCount: int)
  {
    -2 < count - lastCount < 2
  }

  /** The activity steppable also perturbs necrotic cells, so the frozen
      target volume the fate steppable gave a necrotic cell does not survive
      it: a necrotic cell frozen at volume 100 is pulled to 80. */
  lemma ActivityThawsNecroticCells()
    ensures var c := Cell(Necrotic, 100.0, Point(0.0, 0.0, 0.0), 100.0, 50.0, 50.0);
            ActivityStep([c], 1, [0.5]).0[0].targetVolume == 80.0 != c.targetVolume
  {
  }
}

=== FILE: clean_spheroid.dfy ===
/** The clean oxygen-driven spheroid: one regulation steppable that moves a
    cell between Normoxic, Hypoxic and Necrotic on the thresholds 0.15 and
    0.4 and grows it, a mitosis steppable gated by volume, oxygen and a
    population cap, and a periodic census. When the oxygen field is not
    available the regulation steppable does nothing and the mitosis steppable
    divides without its oxygen gate; the field is therefore an `Option`. */
module CleanSpheroid {
  import opened Wrappers
  import opened Lattice
  import opened Spheroid
  import opened RealSeq

  const O2Hypoxic: real := 0.4
  const O2Necrotic: real := 0.15
  /** Target-volume growth per step in good and in reduced oxygen. */
  const GrowthHigh: real := 2.0
  const GrowthLow: real := 0.5
  /** Bounds the regulation keeps every growing cell's target volume in. */
  const TvLow: real := 10.0
  const TvHigh: real := 120.0
  const DivisionVolume: real := 55.0
  /** No division happens once the population has reached this size. */
  const MaxCells: nat := 5000
  /** Period of the census, in steps. */
  const AnalysisPeriod: nat := 50
  /** Attributes of the initial seed cell. */
  const SeedTargetVolume: real := 40.0
  const SeedLambdaVolume: real := 5.0
  const SeedLambdaSurface: real := 2.0

  /** The clamp of the regulation steppable. With `low > high` it is not a
      clamp at all: values below `low` still give `low`. */
  function Bounded(v: real, low: real, high: real): (r: real)
    ensures low <= high ==> low <= r <= high
    ensures low <= v <= high ==> r == v
    ensures v < low ==> r == low
    ensures v > high && v >= low ==> r == high
  {
    if v < low then low else if v > high then high else v
  }

  /** Clamping twice is clamping once. */
  lemma BoundedIdempotent(v: real, low: real, high: real)
    requires low <= high
    ensures Bounded(Bounded(v, low, high), low, high) == Bounded(v, low, high)
  {
  }

  /** The clamp never reverses the order of two values. */
  lemma BoundedMonotone(v: real, w: real, low: real, high: real)
    requires low <= high && v <= w
    ensures Bounded(v, low, high) <= Bounded(w, low, high)
  {
  }

  /** The initial seed cell, placed at the centre of the lattice. */
  function SeedCell(volume: real, com: Point): (c: Cell)
    ensures c.kind == Normoxic && Living(c)
    ensures TvLow <= c.targetVolume <= TvHigh
    ensures c.targetVolume == 40.0 && c.lambdaVolume == 5.0 && c.lambdaSurface == 2.0
    ensures c.volume == volume && c.com == com
  {
    Cell(Normoxic, volume, com, SeedTargetVolume, SeedLambdaVolume, SeedLambdaSurface)
  }

  // ---------------------------------------------------------------------
  // Oxygen regulation
  // ---------------------------------------------------------------------

  /** Phenotype change of one step; only the type changes. */
  function Transition(c: Cell, o2: real): (r: Cell)
    ensures r == c.(kind := r.kind)
    ensures c.kind == Normoxic ==>
              (r.kind == Necrotic <==> o2 < O2Necrotic) && (r.kind == Hypoxic <==> O2Necrotic <= o2 < O2Hypoxic)
    ensures c.kind == Hypoxic ==>
              (r.kind == Normoxic <==> o2 >= O2Hypoxic) && (r.kind == Necrotic <==> o2 < O2Necrotic)
    ensures !Living(c) ==> r == c
  {
    if c.kind == Normoxic && o2 < O2Necrotic then c.(kind := Necrotic)
    else if c.kind == Normoxic && o2 < O2Hypoxic then c.(kind := Hypoxic)
    else if c.kind == Hypoxic && o2 >= O2Hypoxic then c.(kind := Normoxic)
    else if c.kind == Hypoxic && o2 < O2Necrotic then c.(kind := Necrotic)
    else c
  }

  /** Target-volume increment for an oxygen level. */
  function Increment(o2: real): (g: real)
    ensures 0.0 <= g <= GrowthHigh
    ensures g == 0.0 <==> o2 < O2Necrotic
    ensures o2 >= O2Hypoxic ==> g == GrowthHigh
    ensures O2Necrotic <= o2 < O2Hypoxic ==> g == GrowthLow
  {
    if o2 >= O2Hypoxic then GrowthHigh
    else if o2 >= O2Necrotic then GrowthLow
    else 0.0
  }

  /** One cell's visit by the regulation steppable: transition, then growth
      of every cell that is not necrotic, bounded to [10, 120]. */
  function Regulate(c: Cell, o2: real): (r: Cell)
    ensures r == c.(kind := r.kind, targetVolume := r.targetVolume)
    ensures c.kind == Medium || c.kind == Necrotic ==> r == c
    ensures r.kind == Necrotic ==> r.targetVolume == c.targetVolume
    ensures Living(r) ==> TvLow <= r.targetVolume <= TvHigh
    ensures Living(r) && TvLow <= c.targetVolume && c.targetVolume + Increment(o2) <= TvHigh ==>
              r.targetVolume == c.targetVolume + Increment(o2)
    ensures Living(r) ==> r.targetVolume == Bounded(c.targetVolume + Increment(o2), TvLow, TvHigh)
  {
    if c.kind == Medium then c
    else
      var t := Transition(c, o2);
      if t.kind != Necrotic then t.(targetVolume := Bounded(t.targetVolume + Increment(o2), TvLow, TvHigh))
      else t
  }

  /** Oxygen bands of the clean variant. */
  datatype Band = Starved | Poor | Rich

  function BandOf(o2: real): Band
  {
    if o2 < O2Necrotic then Starved else if o2 < O2Hypoxic then Poor else Rich
  }

  /** The phenotype a living cell ends up with in each band. */
  function KindFor(b: Band): Phenotype
  {
    match b
    case Starved => Necrotic
    case Poor => Hypoxic
    case Rich => Normoxic
  }

  /** In this variant a living cell's new phenotype depends on the band
      alone, not on its previous phenotype; necrotic and medium cells keep
      theirs. */
  lemma FateDependsOnlyOnBand(c: Cell, o2: real)
    ensures Living(c) ==> Regulate(c, o2).kind == KindFor(BandOf(o2))
    ensures !Living(c) ==> Regulate(c, o2).kind == c.kind
  {
  }

  /** Among cells that stay alive, more oxygen never yields a smaller target
      volume. */
  lemma RegulationMonotoneInOxygen(c: Cell, o2: real, o2': real)
    requires Living(c) && O2Necrotic <= o2 <= o2'
    ensures Living(Regulate(c, o2)) && Living(Regulate(c, o2'))
    ensures Regulate(c, o2).targetVolume <= Regulate(c, o2').targetVolume
  {
  }

  /** The oxygen each cell reads, or `None` without a field. */
  function OxygenAt(field: Option<Field>, c: Cell, dims: Dims): (o2: Option<real>)
    ensures o2.None? <==> field.None?
    ensures field.Some? ==> o2.value == field.value(SampleVoxel(c.com, dims))
  {
    match field
    case None => None
    case Some(f) => Some(Sample(f, c.com, dims))
  }

  /** One run of the regulation steppable over the cell list. */
  function RegulationStep(pop: seq<Cell>, field: Option<Field>, dims: Dims): (r: seq<Cell>)
    ensures field.None? ==> r == pop
    ensures |r| == |pop|
    ensures field.Some? ==> forall i :: 0 <= i < |pop| ==> r[i] == Regulate(pop[i], Sample(field.value, pop[i].com, dims))
    ensures forall i :: 0 <= i < |pop| && pop[i].kind == Necrotic ==> r[i] == pop[i]
    ensures field.Some? ==> forall i :: 0 <= i < |pop| && Living(r[i]) ==> TvLow <= r[i].targetVolume <= TvHigh
  {
    match field
    case None => pop
    case Some(f) => seq(|pop|, i requires 0 <= i < |pop| => Regulate(pop[i], Sample(f, pop[i].com, dims)))
  }

  /** Necrosis is absorbing: no regulation step lowers the number of
      necrotic cells. */
  lemma {:induction false} RegulationKeepsNecrotic(pop: seq<Cell>, field: Option<Field>, dims: Dims)
    ensures CountKind(RegulationStep(pop, field, dims), Necrotic) >= CountKind(pop, Necrotic)
  {
    if field.Some? && |pop| > 0 {
      assert RegulationStep(pop, field, dims)[1..] == RegulationStep(pop[1..], field, dims);
      RegulationKeepsNecrotic(pop[1..], field, dims);
    }
  }

  // ---------------------------------------------------------------------
  // Mitosis
  // ---------------------------------------------------------------------

  /** The division rule for one cell: living, larger than 55 and, when the
      field exists, not in starved oxygen. */
  predicate Divides(c: Cell, o2: Option<real>)
  {
    Living(c) && c.volume > DivisionVolume && (o2.None? || o2.value >= O2Necrotic)
  }

  function MitosisSelection(pop: seq<Cell>, field: Option<Field>, dims: Dims): (sel: seq<bool>)
    ensures |sel| == |pop|
    ensures forall i :: 0 <= i < |pop| ==> sel[i] == Divides(pop[i], OxygenAt(field, pop[i], dims))
  {
    seq(|pop|, i requires 0 <= i < |pop| => Divides(pop[i], OxygenAt(field, pop[i], dims)))
  }

  /** One run of the mitosis steppable. The cap is checked once, before the
      loop: at or above 5000 cells nothing divides; below it every selected
      cell divides. The selection is made on the list as it was when the loop
      started. */
  function MitosisStep(pop: seq<Cell>, field: Option<Field>, dims: Dims): (r: seq<Cell>)
    ensures |pop| >= MaxCells ==> r == pop
    ensures |pop| <= |r| <= 2 * |pop|
    ensures |pop| < MaxCells ==>
              forall i :: 0 <= i < |pop| ==>
                r[i] == (if Divides(pop[i], OxygenAt(field, pop[i], dims)) then Split(pop[i]).parent else pop[i])
    ensures forall i :: 0 <= i < |pop| && !Living(pop[i]) ==> r[i] == pop[i]
    ensures |pop| < MaxCells ==>
              var sel := MitosisSelection(pop, field, dims);
              |r| == |pop| + CountTrue(sel) && r[|pop|..] == Children(pop, sel)
  {
    if |pop| >= MaxCells then pop
    else DivideSelected(pop, MitosisSelection(pop, field, dims))
  }

  /** The mitosis steppable conserves the total target volume and never
      changes the number of necrotic (or medium) cells. */
  lemma MitosisConserves(pop: seq<Cell>, field: Option<Field>, dims: Dims)
    ensures Sum(Targets(MitosisStep(pop, field, dims))) == Sum(Targets(pop))
    ensures CountKind(MitosisStep(pop, field, dims), Necrotic) == CountKind(pop, Necrotic)
    ensures CountKind(MitosisStep(pop, field, dims), Medium) == CountKind(pop, Medium)
  {
    if |pop| < MaxCells {
      var sel := MitosisSelection(pop, field, dims);
      DivisionConservesTargetVolume(pop, sel);
      DivisionKeepsUnselectedKind(pop, sel, Necrotic);
      DivisionKeepsUnselectedKind(pop, sel, Medium);
    }
  }

  lemma {:induction false} AllTrueCount(sel: seq<bool>)
    requires forall i :: 0 <= i < |sel| ==> sel[i]
    ensures CountTrue(sel) == |sel|
  {
    if |sel| > 0 {
      AllTrueCount(sel[1..]);
    }
  }

  /** The cap is not checked inside the loop, so one step just below it can
      take the population well past 5000. */
  lemma CapCanBeOvershot(pop: seq<Cell>, field: Option<Field>, dims: Dims)
    requires |pop| == MaxCells - 1
    requires forall i :: 0 <= i < |pop| ==> Divides(pop[i], OxygenAt(field, pop[i], dims))
    ensures |MitosisStep(pop, field, dims)| == 2 * MaxCells - 2 > MaxCells
  {
    AllTrueCount(MitosisSelection(pop, field, dims));
  }

  // ---------------------------------------------------------------------
  // Census
  // ---------------------------------------------------------------------

  datatype Census = Census(normoxic: nat, hypoxic: nat, necrotic: nat)

  /** One pass of the census loop: each cell adds one to the count of its
      phenotype. The engine's cell list never yields the medium, so the
      medium entries the second clause allows for do not occur in a real
      run; the model keeps `Medium` in the type only because the steppables
      test for it. */
  function Tally(pop: seq<Cell>): (r: Census)
    ensures r.normoxic + r.hypoxic + r.necrotic <= |pop|
    ensures r.normoxic + r.hypoxic + r.necrotic + CountKind(pop, Medium) == |pop|
  {
    if |pop| == 0 then Census(0, 0, 0)
    else
      var rest := Tally(pop[1..]);
      match pop[0].kind
      case Normoxic => rest.(normoxic := rest.normoxic + 1)
      case Hypoxic => rest.(hypoxic := rest.hypoxic + 1)
      case Necrotic => rest.(necrotic := rest.necrotic + 1)
      case Medium => rest
  }

  /** The census loop agrees with the per-phenotype counts. */
  lemma {:induction false} TallyMatchesCounts(pop: seq<Cell>)
    ensures Tally(pop) == Census(CountKind(pop, Normoxic), CountKind(pop, Hypoxic), CountKind(pop, Necrotic))
  {
    if |pop| > 0 {
      TallyMatchesCounts(pop[1..]);
    }
  }

  /** The census steppable reports only on multiples of 50. */
  function Analysis(pop: seq<Cell>, mcs: nat): (r: Option<Census>)
    ensures r.Some? <==> mcs % AnalysisPeriod == 0
    ensures r.Some? ==> r.value.normoxic + r.value.hypoxic + r.value.necrotic <= |pop|
    ensures r.Some? ==> r.value == Census(CountKind(pop, Normoxic), CountKind(pop, Hypoxic), CountKind(pop, Necrotic))
  {
    TallyMatchesCounts(pop);
    if mcs % AnalysisPeriod != 0 then None else Some(Tally(pop))
  }
}

=== FILE: evo_cells.dfy ===
/** The cell record of the evolutionary stem/somatic tumour model.

    Each cell carries two heritable traits: the stemness probability `pstem`
    (how likely a stem cell's division is to produce two stem cells) and the
    senescence budget `rho` (how many divisions a somatic descendant may
    make). `generationsLeft` is the per-cell countdown that mirrors `rho`
    and is spent by somatic divisions. `volume` and `xCom` belong to the
    external lattice engine and are read-only here; every other field is
    written by the steppables. */
module EvoCells {

  /** Cell types of the model; the medium is not part of the cell list. */
  datatype CellKind = Stem | Somatic | Necrotic

  datatype Cell = Cell(
    id: nat,
    kind: CellKind,
    volume: real,          // actual volume, owned by the lattice engine
    xCom: real,            // x coordinate of the centre of mass
    targetVolume: real,
    lambdaVolume: real,
    pstem: real,           // stemness probability, heritable
    rho: real,             // senescence budget, heritable
    generationsLeft: real, // somatic division countdown, reset from rho
    pressure: real         // 2 * (targetVolume - volume) * lambdaVolume
  )

  /** Volume above which a cell divides (any type). */
  const DivisionVolume: real := 25.0
  /** Target volume and constraint strength of a dying cell. */
  const NecroticTargetVolume: real := 0.0
  const NecroticLambdaVolume: real := 100.0
  /** Pressure below which the pressure-limited law grows a cell. */
  const PressureThreshold: real := 30.0
  /** Initial target volume and constraint strength of every seed cell. */
  const SeedTargetVolume: real := 25.0
  const SeedLambdaVolume: real := 8.0

  /** Stem and somatic cells are the ones that grow and are treated. */
  predicate Proliferating(c: Cell)
  {
    c.kind == Stem || c.kind == Somatic
  }

  /** The division criterion: actual volume strictly above 25. */
  predicate Eligible(c: Cell)
  {
    c.volume > DivisionVolume
  }

  /** Turning a cell necrotic, shared by senescence and every treatment:
      the type becomes Necrotic, the target volume drops to zero and the
      volume constraint is stiffened so the cell collapses. Nothing heritable
      is touched. */
  function Kill(c: Cell): (r: Cell)
    ensures r.kind == Necrotic
    ensures r.targetVolume == 0.0 && r.lambdaVolume == 100.0
    ensures r.id == c.id && r.volume == c.volume && r.xCom == c.xCom
    ensures r.pstem == c.pstem && r.rho == c.rho
    ensures r.generationsLeft == c.generationsLeft && r.pressure == c.pressure
  {
    c.(kind := Necrotic, targetVolume := NecroticTargetVolume, lambdaVolume := NecroticLambdaVolume)
  }

  /** Initialisation at the first step: target volume 25, constraint strength
      8, the two traits from the steering panel, the countdown equal to the
      budget, and a pressure that is clamped at zero (unlike the per-step
      update in the mitosis steppable, which is not clamped). */
  function Seed(id: nat, kind: CellKind, volume: real, xCom: real, pInit: real, rhoInit: real): (c: Cell)
    ensures c.id == id && c.kind == kind && c.volume == volume && c.xCom == xCom
    ensures c.targetVolume == 25.0 && c.lambdaVolume == 8.0
    ensures c.pstem == pInit && c.rho == rhoInit && c.generationsLeft == rhoInit
    ensures c.pressure >= 0.0
    ensures volume < 25.0 <==> c.pressure > 0.0
    ensures volume <= 25.0 ==> c.pressure == 16.0 * (25.0 - volume)
    ensures volume >= 25.0 ==> c.pressure == 0.0
  {
    var p := (SeedTargetVolume - volume) * SeedLambdaVolume;
    Cell(id, kind, volume, xCom, SeedTargetVolume, SeedLambdaVolume, pInit, rhoInit, rhoInit,
         2.0 * (if 0.0 > p then 0.0 else p))
  }

  /** Number of necrotic cells in a population. */
  function NecroticCount(pop: seq<Cell>): nat
  {
    if |pop| == 0 then 0
    else (if pop[0].kind == Necrotic then 1 else 0) + NecroticCount(pop[1..])
  }

  /** Trait projections, for conservation statements. */
  function Stemness(pop: seq<Cell>): (s: seq<real>)
    ensures |s| == |pop|
    ensures forall i :: 0 <= i < |pop| ==> s[i] == pop[i].pstem
  {
    seq(|pop|, i requires 0 <= i < |pop| => pop[i].pstem)
  }

  function Senescence(pop: seq<Cell>): (s: seq<real>)
    ensures |s| == |pop|
    ensures forall i :: 0 <= i < |pop| ==> s[i] == pop[i].rho
  {
    seq(|pop|, i requires 0 <= i < |pop| => pop[i].rho)
  }

  function TargetVolumes(pop: seq<Cell>): (s: seq<real>)
    ensures |s| == |pop|
    ensures forall i :: 0 <= i < |pop| ==> s[i] == pop[i].targetVolume
  {
    seq(|pop|, i requires 0 <= i < |pop| => pop[i].targetVolume)
  }

  function Countdowns(pop: seq<Cell>): (s: seq<real>)
    ensures |s| == |pop|
    ensures forall i :: 0 <= i < |pop| ==> s[i] == pop[i].generationsLeft
  {
    seq(|pop|, i requires 0 <= i < |pop| => pop[i].generationsLeft)
  }
}

=== FILE: evo_growth.dfy ===
/** The three growth laws of the evolutionary model. Only stem and somatic
    cells grow; necrotic cells are left alone. The pressure a law consults is
    the one the mitosis steppable stored on its previous run, which is not
    clamped at zero, so it is negative whenever a cell is larger than its
    target volume. */
module EvoGrowth {
  import opened EvoCells
  import opened Wrappers

  /** The growth law chosen on the steering panel; the panel's default entry
      "Growth Law" behaves as `PressureLimited`. */
  datatype GrowthLaw = Exponential | PressureLimited | ContactInhibited

  /** Per-step growth of the exponential and pressure-limited laws. */
  const GrowthIncrement: real := 0.2
  /** Cap of the exponential law. */
  const ExponentialCap: real := 60.0
  /** Growth of the contact-inhibited law at zero pressure. */
  const ContactMaxIncrement: real := 2.0

  /** The contact-inhibited increment `2 / (1 + pressure / 30)`. Python
      raises a division-by-zero error when the pressure is exactly -30; the
      model answers `None` there. A pressure below -30 makes the increment
      negative, so the law shrinks the cell. */
  function ContactIncrement(pressure: real): (r: Option<real>)
    ensures r.None? <==> pressure == -PressureThreshold
    ensures pressure >= 0.0 ==> r.Some? && 0.0 < r.value <= ContactMaxIncrement
    ensures -PressureThreshold < pressure < 0.0 ==> r.Some? && r.value > ContactMaxIncrement
    ensures pressure < -PressureThreshold ==> r.Some? && r.value < 0.0
    ensures r.Some? ==> r.value * (1.0 + pressure / PressureThreshold) == ContactMaxIncrement
  {
    var denom := 1.0 + pressure / PressureThreshold;
    if denom == 0.0 then None
    else
      var v := ContactMaxIncrement / denom;
      assert v * denom == ContactMaxIncrement;
      Some(v)
  }

  /** Above the singular pressure, the contact-inhibited increment never
      grows with pressure: a more compressed cell grows no faster. */
  lemma ContactIncrementAntitone(p: real, q: real)
    requires -PressureThreshold < p <= q
    ensures ContactIncrement(p).Some? && ContactIncrement(q).Some?
    ensures ContactIncrement(q).value <= ContactIncrement(p).value
  {
    var dp := 1.0 + p / PressureThreshold;
    var dq := 1.0 + q / PressureThreshold;
    assert 0.0 < dp <= dq;
    var vp := ContactMaxIncrement / dp;
    var vq := ContactMaxIncrement / dq;
    assert vp * dp == ContactMaxIncrement && vq * dq == ContactMaxIncrement;
    assert vq > 0.0;
    assert vq * dp <= vq * dq;
    assert (vp - vq) * dp >= 0.0;
    assert vq <= vp;
    assert ContactIncrement(p).value == vp && ContactIncrement(q).value == vq;
  }

  /** One cell's growth under a law. Only the target volume changes; the
      contact-inhibited law fails at pressure -30. */
  function Grow(law: GrowthLaw, c: Cell): (r: Option<Cell>)
    ensures r.None? <==> law == ContactInhibited && Proliferating(c) && c.pressure == -PressureThreshold
    ensures r.Some? ==> r.value == c.(targetVolume := r.value.targetVolume)
    ensures !Proliferating(c) ==> r == Some(c)
    ensures Proliferating(c) && law == Exponential ==>
              && r.value.targetVolume <= ExponentialCap
              && (c.targetVolume <= ExponentialCap - GrowthIncrement ==> r.value.targetVolume == c.targetVolume + GrowthIncrement)
              && (c.targetVolume >= ExponentialCap - GrowthIncrement ==> r.value.targetVolume == ExponentialCap)
    ensures Proliferating(c) && law == PressureLimited ==>
              && (c.pressure < PressureThreshold ==> r.value.targetVolume == c.targetVolume + GrowthIncrement)
              && (c.pressure >= PressureThreshold ==> r.value.targetVolume == c.targetVolume)
    ensures Proliferating(c) && law == ContactInhibited && c.pressure >= 0.0 ==>
              c.targetVolume < r.value.targetVolume <= c.targetVolume + ContactMaxIncrement
    ensures Proliferating(c) && law == ContactInhibited && -PressureThreshold < c.pressure < 0.0 ==>
              r.value.targetVolume > c.targetVolume + ContactMaxIncrement
    ensures Proliferating(c) && law == ContactInhibited && c.pressure < -PressureThreshold ==>
              r.value.targetVolume < c.targetVolume
    ensures Proliferating(c) && law == ContactInhibited && r.Some? ==>
              r.value.targetVolume == c.targetVolume + ContactIncrement(c.pressure).value
  {
    if !Proliferating(c) then Some(c)
    else
      match law
      case Exponential =>
        var grown := c.targetVolume + GrowthIncrement;
        Some(c.(targetVolume := if grown < ExponentialCap then grown else ExponentialCap))
      case PressureLimited =>
        if c.pressure < PressureThreshold then Some(c.(targetVolume := c.targetVolume + GrowthIncrement))
        else Some(c)
      case ContactInhibited =>
        match ContactIncrement(c.pressure)
        case None => None
        case Some(inc) => Some(c.(targetVolume := c.targetVolume + inc))
  }

  /** Under the exponential law a cell above the cap is pulled back down to
      it: the law bounds the target volume rather than only the growth. */
  lemma ExponentialPullsDownToCap(c: Cell)
    requires Proliferating(c) && c.targetVolume > ExponentialCap
    ensures Grow(Exponential, c).value.targetVolume == ExponentialCap < c.targetVolume
  {
  }

  /** Growth of a whole population; a single failing cell fails the step, as
      the uncaught Python exception would. */
  function GrowAll(law: GrowthLaw, pop: seq<Cell>): (r: Option<seq<Cell>>)
    ensures r.Some? <==> forall i :: 0 <= i < |pop| ==> Grow(law, pop[i]).Some?
    ensures r.Some? ==> |r.value| == |pop| && forall i :: 0 <= i < |pop| ==> r.value[i] == Grow(law, pop[i]).value
  {
    if |pop| == 0 then Some([])
    else
      match (Grow(law, pop[0]), GrowAll(law, pop[1..]))
      case (Some(c), Some(rest)) => Some([c] + rest)
      case _ => None
  }

  /** Growth never changes a cell's type, so the necrotic population is the
      same before and after. */
  lemma {:induction false} GrowAllKeepsNecroticCount(law: GrowthLaw, pop: seq<Cell>)
    requires GrowAll(law, pop).Some?
    ensures NecroticCount(GrowAll(law, pop).value) == NecroticCount(pop)
  {
    if |pop| > 0 {
      var r := GrowAll(law, pop).value;
      assert r[1..] == GrowAll(law, pop[1..]).value;
      GrowAllKeepsNecroticCount(law, pop[1..]);
    }
  }
}

=== FILE: evo_mitosis.dfy ===
/** The mitosis steppable of the evolutionary model: the per-step census,
    the pairwise conservation-law mutation of the two heritable traits, the
    mutation counters, the post-division partition and the divisions that
    close the step.

    Every random decision is an input. For each dividing stem cell the
    caller supplies the uniform draw that decides whether the stemness
    mutation fires, the magnitude `|N(0, amplitude)|` and the partner the
    re-pick loop settled on, and the same three again for the senescence
    budget. */
module EvoMitosis {
  import opened Wrappers
  import opened EvoCells
  import opened RealSeq

  // ---------------------------------------------------------------------
  // Census
  // ---------------------------------------------------------------------

  /** The lists the census builds while walking the cell list. */
  datatype Roster = Dividing | DividingStem | DividingSomatic | AllStem

  predicate InRoster(r: Roster, c: Cell)
  {
    match r
    case Dividing => Eligible(c)
    case DividingStem => Eligible(c) && c.kind == Stem
    case DividingSomatic => Eligible(c) && c.kind == Somatic
    case AllStem => c.kind == Stem
  }

  /** Indices, from `from` on and in cell-list order, of the cells a roster
      collects. */
  function RosterFrom(pop: seq<Cell>, r: Roster, from: nat): (idx: seq<nat>)
    requires from <= |pop|
    ensures forall k :: 0 <= k < |idx| ==> from <= idx[k] < |pop| && InRoster(r, pop[idx[k]])
    ensures forall i :: from <= i < |pop| && InRoster(r, pop[i]) ==> i in idx
    ensures forall k, l :: 0 <= k < l < |idx| ==> idx[k] < idx[l]
    decreases |pop| - from
  {
    if from == |pop| then []
    else if InRoster(r, pop[from]) then [from] + RosterFrom(pop, r, from + 1)
    else RosterFrom(pop, r, from + 1)
  }

  /** A roster over the whole cell list: exactly the qualifying cells, each
      once, in list order. */
  function RosterOf(pop: seq<Cell>, r: Roster): (idx: seq<nat>)
    ensures forall i :: 0 <= i < |pop| ==> (i in idx <==> InRoster(r, pop[i]))
    ensures forall k :: 0 <= k < |idx| ==> idx[k] < |pop|
    ensures forall k, l :: 0 <= k < l < |idx| ==> idx[k] < idx[l]
  {
    RosterFrom(pop, r, 0)
  }

  /** Number of cells of a population a roster collects. */
  function CountIn(pop: seq<Cell>, r: Roster): nat
  {
    if |pop| == 0 then 0
    else (if InRoster(r, pop[0]) then 1 else 0) + CountIn(pop[1..], r)
  }

  lemma {:induction false} RosterFromLength(pop: seq<Cell>, r: Roster, from: nat)
    requires from <= |pop|
    ensures |RosterFrom(pop, r, from)| == CountIn(pop[from..], r)
    decreases |pop| - from
  {
    if from < |pop| {
      assert pop[from..][1..] == pop[from + 1..];
      RosterFromLength(pop, r, from + 1);
    }
  }

  /** The per-cell part of the census: the pressure is recomputed (without
      clamping at zero) and a dividing somatic cell spends one generation. */
  function Survey(c: Cell): (r: Cell)
    ensures r.generationsLeft == c.generationsLeft - 1.0 <==> Eligible(c) && c.kind == Somatic
    ensures r.generationsLeft == c.generationsLeft || r.generationsLeft == c.generationsLeft - 1.0
    ensures r.pressure > 0.0 <==> (c.targetVolume - c.volume) * c.lambdaVolume > 0.0
    ensures r.(pressure := c.pressure, generationsLeft := c.generationsLeft) == c
  {
    var pressure := 2.0 * (c.targetVolume - c.volume) * c.lambdaVolume;
    var spent := if Eligible(c) && c.kind == Somatic then c.generationsLeft - 1.0 else c.generationsLeft;
    c.(pressure := pressure, generationsLeft := spent)
  }

  /** The census over the whole cell list. */
  function Census(pop: seq<Cell>): (r: seq<Cell>)
    ensures |r| == |pop|
    ensures forall i :: 0 <= i < |pop| ==> r[i] == Survey(pop[i])
  {
    if |pop| == 0 then [] else [Survey(pop[0])] + Census(pop[1..])
  }

  /** The census spends exactly one generation per dividing somatic cell, and
      nothing else: the total countdown drops by the size of the dividing
      somatic roster. */
  lemma {:induction false} CensusSpendsOneGenerationPerSomaticDivision(pop: seq<Cell>)
    ensures Sum(Countdowns(Census(pop))) == Sum(Countdowns(pop)) - |RosterOf(pop, DividingSomatic)| as real
  {
    RosterFromLength(pop, DividingSomatic, 0);
    assert pop[0..] == pop;
    CensusCountdown(pop);
  }

  lemma {:induction false} CensusCountdown(pop: seq<Cell>)
    ensures Sum(Countdowns(Census(pop))) == Sum(Countdowns(pop)) - CountIn(pop, DividingSomatic) as real
  {
    if |pop| > 0 {
      assert Countdowns(Census(pop))[1..] == Countdowns(Census(pop[1..]));
      assert Countdowns(pop)[1..] == Countdowns(pop[1..]);
      CensusCountdown(pop[1..]);
    }
  }

  /** The census leaves types and actual volumes alone, so every roster is
      the same before and after it. */
  lemma {:induction false} CensusKeepsRosters(pop: seq<Cell>, roster: Roster)
    ensures RosterOf(Census(pop), roster) == RosterOf(pop, roster)
  {
    CensusKeepsRostersFrom(pop, roster, 0);
  }

  lemma {:induction false} CensusKeepsRostersFrom(pop: seq<Cell>, roster: Roster, from: nat)
    requires from <= |pop|
    ensures RosterFrom(Census(pop), roster, from) == RosterFrom(pop, roster, from)
    decreases |pop| - from
  {
    if from < |pop| {
      CensusKeepsRostersFrom(pop, roster, from + 1);
    }
  }

  // ---------------------------------------------------------------------
  // Pairwise mutation
  // ---------------------------------------------------------------------

  /** One mutation attempt's random inputs: the uniform draw compared with
      the mutation probability, the magnitude `|N(0, amplitude)|` and the
      index of the partner cell. */
  datatype Draw = Draw(u: real, delta: real, partner: nat)

  /** The draws for one dividing stem cell: stemness first, then senescence. */
  datatype StemDraws = StemDraws(stemness: Draw, senescence: Draw)

  /** Per-division mutation probabilities from the steering panel. */
  datatype Rates = Rates(stemness: real, senescence: real)

  /** A population after some mutation attempts, with the number accepted. */
  datatype Mutated = Mutated(cells: seq<Cell>, count: nat)

  /** A draw the simulation can produce for cell `i`: a partner different
      from `i` (the re-pick loop guarantees it) and a non-negative
      magnitude. */
  predicate WellFormed(pop: seq<Cell>, i: nat, d: Draw)
  {
    i < |pop| && d.partner < |pop| && d.partner != i && d.delta >= 0.0
  }

  /** The legality veto of a stemness mutation: the donor must keep a
      positive stemness and the recipient must stay below one. */
  predicate StemnessLegal(donor: Cell, recipient: Cell, delta: real)
  {
    donor.pstem > delta && recipient.pstem < 1.0 - delta
  }

  /** The veto of a senescence mutation: the donor must keep a positive
      budget; the recipient has no upper bound. */
  predicate SenescenceLegal(donor: Cell, delta: real)
  {
    donor.rho > delta
  }

  /** A stemness mutation of cell `i`: when it fires and is legal, `i` gives
      `delta` of stemness to the partner; otherwise nothing changes. */
  function MutateStemness(pop: seq<Cell>, i: nat, d: Draw, rate: real): (r: Mutated)
    requires WellFormed(pop, i, d)
    ensures |r.cells| == |pop|
    ensures r.count <= 1
    ensures r.count == 1 <==> d.u < rate && StemnessLegal(pop[i], pop[d.partner], d.delta)
    ensures r.count == 0 ==> r.cells == pop
    ensures r.count == 1 ==>
              && r.cells[i] == pop[i].(pstem := r.cells[i].pstem)
              && r.cells[d.partner] == pop[d.partner].(pstem := r.cells[d.partner].pstem)
              && r.cells[i].pstem == pop[i].pstem - d.delta
              && r.cells[d.partner].pstem == pop[d.partner].pstem + d.delta
              && r.cells[i].pstem > 0.0
              && r.cells[d.partner].pstem < 1.0
    ensures forall k :: 0 <= k < |pop| && k != i && k != d.partner ==> r.cells[k] == pop[k]
  {
    if d.u < rate && StemnessLegal(pop[i], pop[d.partner], d.delta) then
      var donor := pop[i].(pstem := pop[i].pstem - d.delta);
      var recipient := pop[d.partner].(pstem := pop[d.partner].pstem + d.delta);
      Mutated(pop[i := donor][d.partner := recipient], 1)
    else
      Mutated(pop, 0)
  }

  /** A senescence mutation of cell `i`: when it fires and is legal, `i`
      gives `delta` of budget to the partner and both countdowns restart
      from the new budgets; otherwise nothing changes. */
  function MutateSenescence(pop: seq<Cell>, i: nat, d: Draw, rate: real): (r: Mutated)
    requires WellFormed(pop, i, d)
    ensures |r.cells| == |pop|
    ensures r.count <= 1
    ensures r.count == 1 <==> d.u < rate && SenescenceLegal(pop[i], d.delta)
    ensures r.count == 0 ==> r.cells == pop
    ensures r.count == 1 ==>
              && r.cells[i] == pop[i].(rho := r.cells[i].rho, generationsLeft := r.cells[i].rho)
              && r.cells[d.partner] == pop[d.partner].(rho := r.cells[d.partner].rho, generationsLeft := r.cells[d.partner].rho)
              && r.cells[i].rho == pop[i].rho - d.delta
              && r.cells[d.partner].rho == pop[d.partner].rho + d.delta
              && r.cells[i].rho > 0.0
    ensures forall k :: 0 <= k < |pop| && k != i && k != d.partner ==> r.cells[k] == pop[k]
  {
    if d.u < rate && SenescenceLegal(pop[i], d.delta) then
      var left := pop[i].rho - d.delta;
      var right := pop[d.partner].rho + d.delta;
      var donor := pop[i].(rho := left, generationsLeft := left);
      var recipient := pop[d.partner].(rho := right, generationsLeft := right);
      Mutated(pop[i := donor][d.partner := recipient], 1)
    else
      Mutated(pop, 0)
  }

  /** A legal stemness mutation between two cells whose stemness lies in
      [0, 1] leaves both strictly inside (0, 1) when the magnitude is
      positive. */
  lemma StemnessStaysInsideUnit(pop: seq<Cell>, i: nat, d: Draw, rate: real)
    requires WellFormed(pop, i, d) && d.delta > 0.0
    requires 0.0 <= pop[i].pstem <= 1.0 && 0.0 <= pop[d.partner].pstem <= 1.0
    requires MutateStemness(pop, i, d, rate).count == 1
    ensures var q := MutateStemness(pop, i, d, rate).cells;
            0.0 < q[i].pstem < 1.0 && 0.0 < q[d.partner].pstem < 1.0
  {
  }

  /** Only the two heritable traits and the countdown move. */
  predicate SameButTraits(a: Cell, b: Cell)
  {
    a == b.(pstem := a.pstem, rho := a.rho, generationsLeft := a.generationsLeft)
  }

  /** The conservation law of one stemness attempt: the population total of
      stemness is unchanged and the senescence budgets are untouched. */
  lemma MutateStemnessConserves(pop: seq<Cell>, i: nat, d: Draw, rate: real)
    requires WellFormed(pop, i, d)
    ensures Sum(Stemness(MutateStemness(pop, i, d, rate).cells)) == Sum(Stemness(pop))
    ensures Senescence(MutateStemness(pop, i, d, rate).cells) == Senescence(pop)
  {
    var r := MutateStemness(pop, i, d, rate);
    if r.count == 1 {
      var donor := pop[i].(pstem := pop[i].pstem - d.delta);
      var recipient := pop[d.partner].(pstem := pop[d.partner].pstem + d.delta);
      var mid := pop[i := donor];
      assert r.cells == mid[d.partner := recipient];
      assert Stemness(mid) == Stemness(pop)[i := donor.pstem];
      SumUpdate(Stemness(pop), i, donor.pstem);
      assert Stemness(r.cells) == Stemness(mid)[d.partner := recipient.pstem];
      SumUpdate(Stemness(mid), d.partner, recipient.pstem);
    }
  }

  /** The conservation law of one senescence attempt. */
  lemma MutateSenescenceConserves(pop: seq<Cell>, i: nat, d: Draw, rate: real)
    requires WellFormed(pop, i, d)
    ensures Sum(Senescence(MutateSenescence(pop, i, d, rate).cells)) == Sum(Senescence(pop))
    ensures Stemness(MutateSenescence(pop, i, d, rate).cells) == Stemness(pop)
  {
    var r := MutateSenescence(pop, i, d, rate);
    if r.count == 1 {
      var left := pop[i].rho - d.delta;
      var right := pop[d.partner].rho + d.delta;
      var donor := pop[i].(rho := left, generationsLeft := left);
      var recipient := pop[d.partner].(rho := right, generationsLeft := right);
      var mid := pop[i := donor];
      assert r.cells == mid[d.partner := recipient];
      assert Senescence(mid) == Senescence(pop)[i := left];
      SumUpdate(Senescence(pop), i, left);
      assert Senescence(r.cells) == Senescence(mid)[d.partner := right];
      SumUpdate(Senescence(mid), d.partner, right);
    }
  }

  /** Every draw of a pass is well formed for the cell it belongs to. */
  predicate PassDraws(pop: seq<Cell>, order: seq<nat>, draws: seq<StemDraws>)
  {
    && |draws| == |order|
    && forall k :: 0 <= k < |order| ==>
         WellFormed(pop, order[k], draws[k].stemness) && WellFormed(pop, order[k], draws[k].senescence)
  }

  /** The mutation loop over the dividing stem cells, in list order: each
      cell attempts a stemness mutation, then a senescence mutation, each
      seeing the effects of all earlier attempts. */
  function MutationPass(pop: seq<Cell>, order: seq<nat>, draws: seq<StemDraws>, rates: Rates): (r: Mutated)
    requires PassDraws(pop, order, draws)
    ensures |r.cells| == |pop|
    ensures r.count <= 2 * |order|
    ensures forall j :: 0 <= j < |pop| ==> SameButTraits(r.cells[j], pop[j])
    ensures r.count == 0 ==> r.cells == pop
    decreases |order|
  {
    if |order| == 0 then Mutated(pop, 0)
    else
      var a := MutateStemness(pop, order[0], draws[0].stemness, rates.stemness);
      var b := MutateSenescence(a.cells, order[0], draws[0].senescence, rates.senescence);
      var rest := MutationPass(b.cells, order[1..], draws[1..], rates);
      Mutated(rest.cells, a.count + b.count + rest.count)
  }

  /** The conservation law of a whole pass: however many mutations are
      accepted or vetoed, the population totals of stemness and of the
      senescence budget are what they were. */
  lemma {:induction false} MutationPassConservesTraitTotals(pop: seq<Cell>, order: seq<nat>, draws: seq<StemDraws>, rates: Rates)
    requires PassDraws(pop, order, draws)
    ensures Sum(Stemness(MutationPass(pop, order, draws, rates).cells)) == Sum(Stemness(pop))
    ensures Sum(Senescence(MutationPass(pop, order, draws, rates).cells)) == Sum(Senescence(pop))
    decreases |order|
  {
    if |order| > 0 {
      var a := MutateStemness(pop, order[0], draws[0].stemness, rates.stemness);
      MutateStemnessConserves(pop, order[0], draws[0].stemness, rates.stemness);
      var b := MutateSenescence(a.cells, order[0], draws[0].senescence, rates.senescence);
      MutateSenescenceConserves(a.cells, order[0], draws[0].senescence, rates.senescence);
      MutationPassConservesTraitTotals(b.cells, order[1..], draws[1..], rates);
    }
  }

  /** The draws of the first `k` cells of a pass are well formed too. */
  lemma PassDrawsPrefix(pop: seq<Cell>, order: seq<nat>, draws: seq<StemDraws>, k: nat)
    requires PassDraws(pop, order, draws) && k <= |order|
    ensures PassDraws(pop, order[..k], draws[..k])
  {
  }

  /** The population the `k`-th cell of a pass sees before its own two
      attempts: the result of every attempt of the cells before it. */
  function Before(pop: seq<Cell>, order: seq<nat>, draws: seq<StemDraws>, rates: Rates, k: nat): (s: seq<Cell>)
    requires PassDraws(pop, order, draws) && k <= |order|
    ensures |s| == |pop|
  {
    PassDrawsPrefix(pop, order, draws, k);
    MutationPass(pop, order[..k], draws[..k], rates).cells
  }

  /** How many of the `k`-th cell's two attempts are accepted: an attempt is
      accepted when its draw fires and its veto passes on the population as
      it stands when the attempt is made. The senescence veto reads only the
      donor's budget, which the stemness attempt before it never moves. */
  function AcceptedAt(pop: seq<Cell>, order: seq<nat>, draws: seq<StemDraws>, rates: Rates, k: nat): nat
    requires PassDraws(pop, order, draws) && k < |order|
  {
    var s := Before(pop, order, draws, rates, k);
    var i := order[k];
    var d := draws[k];
    (if d.stemness.u < rates.stemness && StemnessLegal(s[i], s[d.stemness.partner], d.stemness.delta) then 1 else 0)
    + (if d.senescence.u < rates.senescence && SenescenceLegal(s[i], d.senescence.delta) then 1 else 0)
  }

  /** Accepted attempts of the cells from position `from` of the pass on. */
  function AcceptedFrom(pop: seq<Cell>, order: seq<nat>, draws: seq<StemDraws>, rates: Rates, from: nat): nat
    requires PassDraws(pop, order, draws) && from <= |order|
    decreases |order| - from
  {
    if from == |order| then 0
    else AcceptedAt(pop, order, draws, rates, from) + AcceptedFrom(pop, order, draws, rates, from + 1)
  }

  /** After the first cell's attempts, the rest of the pass sees the same
      populations as the pass that starts from them. */
  lemma {:induction false} AcceptedFromShift(pop: seq<Cell>, order: seq<nat>, draws: seq<StemDraws>, rates: Rates, from: nat)
    requires PassDraws(pop, order, draws) && 0 < |order| && from < |order|
    ensures var a := MutateStemness(pop, order[0], draws[0].stemness, rates.stemness);
            var b := MutateSenescence(a.cells, order[0], draws[0].senescence, rates.senescence);
            PassDraws(b.cells, order[1..], draws[1..]) &&
            AcceptedFrom(pop, order, draws, rates, from + 1) == AcceptedFrom(b.cells, order[1..], draws[1..], rates, from)
    decreases |order| - from
  {
    var a := MutateStemness(pop, order[0], draws[0].stemness, rates.stemness);
    var b := MutateSenescence(a.cells, order[0], draws[0].senescence, rates.senescence);
    assert PassDraws(b.cells, order[1..], draws[1..]);
    if from + 1 < |order| {
      var k := from + 1;
      PassDrawsPrefix(pop, order, draws, k);
      assert order[..k][0] == order[0] && draws[..k][0] == draws[0];
      assert order[..k][1..] == order[1..][..from];
      assert draws[..k][1..] == draws[1..][..from];
      assert Before(pop, order, draws, rates, k) == Before(b.cells, order[1..], draws[1..], rates, from);
      assert AcceptedAt(pop, order, draws, rates, k) == AcceptedAt(b.cells, order[1..], draws[1..], rates, from);
      AcceptedFromShift(pop, order, draws, rates, from + 1);
    }
  }

  /** The counter of a pass is exactly the number of accepted attempts. */
  lemma {:induction false} PassCountsAcceptedAttempts(pop: seq<Cell>, order: seq<nat>, draws: seq<StemDraws>, rates: Rates)
    requires PassDraws(pop, order, draws)
    ensures MutationPass(pop, order, draws, rates).count == AcceptedFrom(pop, order, draws, rates, 0)
    decreases |order|
  {
    if |order| > 0 {
      var next := FirstCellStep(pop, order, draws, rates);
      PassCountsAcceptedAttempts(next, order[1..], draws[1..], rates);
    }
  }

  /** One cell's attempts of a pass: they count what `AcceptedAt` counts,
      and they leave the population `next` on which the rest of the pass
      runs. */
  lemma FirstCellStep(pop: seq<Cell>, order: seq<nat>, draws: seq<StemDraws>, rates: Rates) returns (next: seq<Cell>)
    requires PassDraws(pop, order, draws) && 0 < |order|
    ensures PassDraws(next, order[1..], draws[1..])
    ensures MutationPass(pop, order, draws, rates).count
            == AcceptedAt(pop, order, draws, rates, 0) + MutationPass(next, order[1..], draws[1..], rates).count
    ensures AcceptedFrom(pop, order, draws, rates, 0)
            == AcceptedAt(pop, order, draws, rates, 0) + AcceptedFrom(next, order[1..], draws[1..], rates, 0)
  {
    var a := MutateStemness(pop, order[0], draws[0].stemness, rates.stemness);
    var b := MutateSenescence(a.cells, order[0], draws[0].senescence, rates.senescence);
    next := b.cells;
    assert order[..0] == [] && draws[..0] == [];
    assert Before(pop, order, draws, rates, 0) == pop;
    assert a.cells[order[0]].rho == pop[order[0]].rho;
    AcceptedFromShift(pop, order, draws, rates, 0);
  }

  /** The list the first partner pick is drawn from: the dividing stem cells
      when there are several, otherwise every stem cell. */
  function FirstPool(pop: seq<Cell>): seq<nat>
  {
    if |RosterOf(pop, DividingStem)| > 1 then RosterOf(pop, DividingStem) else RosterOf(pop, AllStem)
  }

  /** The list every re-pick is drawn from. With several dividing stem cells
      the re-pick draws from every dividing cell, stem or not; with a single
      one it draws from the stem cells again. */
  function PartnerPool(pop: seq<Cell>): seq<nat>
  {
    if |RosterOf(pop, DividingStem)| > 1 then RosterOf(pop, Dividing) else RosterOf(pop, AllStem)
  }

  /** The re-pick loop of cell `i`: the current pick is kept unless it is `i`
      itself, in which case the next re-pick becomes the current pick. The
      loop ends almost surely but not within any fixed number of re-picks, so
      it yields `None` when the supplied re-picks run out first. */
  function PickLoop(i: nat, pick: nat, repicks: seq<nat>): (r: Option<nat>)
    ensures r.Some? ==> r.value != i && (r.value == pick || r.value in repicks)
    ensures pick != i ==> r == Some(pick)
    ensures r.None? <==> pick == i && forall k :: 0 <= k < |repicks| ==> repicks[k] == i
    ensures pick == i && r.Some? ==>
              exists k :: 0 <= k < |repicks| && r.value == repicks[k] && forall j :: 0 <= j < k ==> repicks[j] == i
    decreases |repicks|
  {
    if pick != i then Some(pick)
    else if |repicks| == 0 then None
    else
      var r := PickLoop(i, repicks[0], repicks[1..]);
      if repicks[0] != i then r
      else if r.Some? then
        var k :| 0 <= k < |repicks[1..]| && r.value == repicks[1..][k] && forall j :: 0 <= j < k ==> repicks[1..][j] == i;
        assert forall j :: 0 <= j < k + 1 ==> repicks[j] == i by {
          forall j | 0 <= j < k + 1 ensures repicks[j] == i {
            if j > 0 { assert repicks[j] == repicks[1..][j - 1]; }
          }
        }
        assert r.value == repicks[k + 1];
        r
      else r
  }

  /** Picks the random choices of the loop can produce. */
  predicate FromPools(pop: seq<Cell>, first: nat, repicks: seq<nat>)
  {
    first in FirstPool(pop) && forall k :: 0 <= k < |repicks| ==> repicks[k] in PartnerPool(pop)
  }

  /** A partner the loop of cell `i` can settle on. */
  ghost predicate Reachable(pop: seq<Cell>, i: nat, p: nat)
  {
    exists first: nat, repicks: seq<nat> :: FromPools(pop, first, repicks) && PickLoop(i, first, repicks) == Some(p)
  }

  /** The first pool is part of the re-pick pool. */
  lemma FirstPoolInPartnerPool(pop: seq<Cell>, p: nat)
    requires p in FirstPool(pop)
    ensures p in PartnerPool(pop)
  {
    if |RosterOf(pop, DividingStem)| > 1 {
      var k :| 0 <= k < |RosterOf(pop, DividingStem)| && RosterOf(pop, DividingStem)[k] == p;
      assert p < |pop| && InRoster(Dividing, pop[p]);
    }
  }

  /** The partners the re-pick loop of a dividing stem cell can settle on
      are exactly the cells of the re-pick pool other than the cell itself:
      every pool member is reached by some choice, and no choice reaches
      anything else. */
  lemma ReachableIsPartnerPool(pop: seq<Cell>, i: nat, p: nat)
    requires i in RosterOf(pop, DividingStem)
    ensures Reachable(pop, i, p) <==> p in PartnerPool(pop) && p != i
  {
    if Reachable(pop, i, p) {
      var first: nat, repicks: seq<nat> :| FromPools(pop, first, repicks) && PickLoop(i, first, repicks) == Some(p);
      if p == first {
        FirstPoolInPartnerPool(pop, first);
      }
    }
    if p in PartnerPool(pop) && p != i {
      if p in FirstPool(pop) {
        assert FromPools(pop, p, []) && PickLoop(i, p, []) == Some(p);
      } else {
        var k :| 0 <= k < |RosterOf(pop, DividingStem)| && RosterOf(pop, DividingStem)[k] == i;
        assert i < |pop| && pop[i].kind == Stem;
        assert i in FirstPool(pop);
        assert FromPools(pop, i, [p]) && PickLoop(i, i, [p]) == Some(p);
      }
    }
  }

  /** The partner of a mutation attempt is one the re-pick loop of cell `i`
      can reach (see `ReachableIsPartnerPool`), and the magnitude is the
      absolute value of a Gaussian sample. */
  predicate Drawable(pop: seq<Cell>, i: nat, d: Draw)
  {
    d.partner != i && d.delta >= 0.0 && d.partner in PartnerPool(pop)
  }

  /** No pairing is possible: one dividing stem cell and no other stem cell. */
  predicate Unpairable(pop: seq<Cell>)
  {
    |RosterOf(pop, DividingStem)| == 1 && |RosterOf(pop, AllStem)| == 1
  }

  /** Draws for every dividing stem cell. When no pairing is possible the
      draws are never used, so any will do; otherwise every partner is one
      the re-pick loop can reach. */
  predicate PhaseDraws(pop: seq<Cell>, draws: seq<StemDraws>)
  {
    var order := RosterOf(pop, DividingStem);
    && |draws| == |order|
    && (Unpairable(pop) ||
        forall k :: 0 <= k < |order| ==>
          Drawable(pop, order[k], draws[k].stemness) && Drawable(pop, order[k], draws[k].senescence))
  }

  /** The mutation phase of one step. When the only stem cell is the one
      dividing, no attempt is made at all; otherwise every dividing stem
      cell runs its two attempts and every accepted attempt is counted. */
  function MutationPhase(pop: seq<Cell>, draws: seq<StemDraws>, rates: Rates): (r: Mutated)
    requires PhaseDraws(pop, draws)
    ensures Unpairable(pop) ==> r == Mutated(pop, 0)
    ensures |RosterOf(pop, DividingStem)| == 0 ==> r == Mutated(pop, 0)
    ensures !Unpairable(pop) ==>
              && PassDraws(pop, RosterOf(pop, DividingStem), draws)
              && r.count == AcceptedFrom(pop, RosterOf(pop, DividingStem), draws, rates, 0)
    ensures |r.cells| == |pop|
    ensures r.count <= 2 * |RosterOf(pop, DividingStem)|
    ensures forall j :: 0 <= j < |pop| ==> SameButTraits(r.cells[j], pop[j])
    ensures Sum(Stemness(r.cells)) == Sum(Stemness(pop))
    ensures Sum(Senescence(r.cells)) == Sum(Senescence(pop))
  {
    var order := RosterOf(pop, DividingStem);
    if Unpairable(pop) then Mutated(pop, 0)
    else
      assert PassDraws(pop, order, draws);
      MutationPassConservesTraitTotals(pop, order, draws, rates);
      PassCountsAcceptedAttempts(pop, order, draws, rates);
      MutationPass(pop, order, draws, rates)
  }

  /** The lone dividing stem cell is accepted and skipped: whatever its
      draws, nothing mutates and nothing is counted, even with both
      mutation probabilities at one. */
  lemma LoneStemCellSkipsMutation()
    ensures var s := Cell(0, Stem, 30.0, 0.0, 30.0, 8.0, 0.5, 5.0, 5.0, 0.0);
            var d := Draw(0.0, 0.1, 0);
            var draws := [StemDraws(d, d)];
            && Unpairable([s])
            && PhaseDraws([s], draws)
            && MutationPhase([s], draws, Rates(1.0, 1.0)) == Mutated([s], 0)
  {
    var s := Cell(0, Stem, 30.0, 0.0, 30.0, 8.0, 0.5, 5.0, 5.0, 0.0);
    assert RosterOf([s], DividingStem) == [0] by {
      assert RosterFrom([s], DividingStem, 1) == [];
    }
    assert RosterOf([s], AllStem) == [0] by {
      assert RosterFrom([s], AllStem, 1) == [];
    }
  }

  /** The partner pool can hold a dividing somatic cell. Then a stemness
      mutation moves stemness out of the stem population: the total over all
      cells is conserved, but the total over stem cells is not. */
  lemma SomaticPartnerLeaksStemness()
    ensures var a := Cell(0, Stem, 30.0, 0.0, 30.0, 8.0, 0.5, 5.0, 5.0, 0.0);
            var b := Cell(1, Stem, 30.0, 0.0, 30.0, 8.0, 0.5, 5.0, 5.0, 0.0);
            var s := Cell(2, Somatic, 30.0, 0.0, 30.0, 8.0, 0.5, 5.0, 5.0, 0.0);
            var pop := [a, b, s];
            var d := Draw(0.0, 0.1, 2);
            && 2 in PartnerPool(pop)
            && Drawable(pop, 0, d)
            && MutateStemness(pop, 0, d, 0.1).cells[0].pstem
               + MutateStemness(pop, 0, d, 0.1).cells[1].pstem < a.pstem + b.pstem
  {
  }

  // ---------------------------------------------------------------------
  // Counters and the whole step
  // ---------------------------------------------------------------------

  /** The global mutation count and the per-step count shown in the plot. */
  datatype Counters = Counters(total: nat, perStep: nat)

  /** Ticks between two points of the mutations-per-step plot. */
  const PlotInterval: nat := 10

  /** Book `accepted` mutations at step `mcs`: both counters rise by one per
      mutation, and the per-step counter is reset after being plotted on
      every tenth step. */
  function Tally(c: Counters, accepted: nat, mcs: nat): (r: Counters)
    ensures r.total - c.total == accepted
    ensures mcs % PlotInterval != 0 ==> r.perStep - c.perStep == accepted
    ensures mcs % PlotInterval == 0 ==> r.perStep == 0
  {
    Counters(c.total + accepted, if mcs % PlotInterval == 0 then 0 else c.perStep + accepted)
  }

  /** The mitosis step before the actual divisions: census, then mutation,
      then the counters. The result's cells are the ones that divide next.
      Both counters rise by the number of accepted attempts; the per-step
      one is plotted and reset on every tenth step. */
  function MitosisStep(pop: seq<Cell>, mcs: nat, draws: seq<StemDraws>, rates: Rates, counters: Counters): (r: (seq<Cell>, Counters))
    requires PhaseDraws(pop, draws)
    ensures |r.0| == |pop|
    ensures forall i :: 0 <= i < |pop| ==> r.0[i].kind == pop[i].kind && r.0[i].volume == pop[i].volume
    ensures forall i :: 0 <= i < |pop| ==> r.0[i].pressure == 2.0 * (pop[i].targetVolume - pop[i].volume) * pop[i].lambdaVolume
    ensures Sum(Stemness(r.0)) == Sum(Stemness(pop))
    ensures Sum(Senescence(r.0)) == Sum(Senescence(pop))
    ensures Unpairable(pop) ==> r.0 == Census(pop) && r.1.total == counters.total
    ensures !Unpairable(pop) ==>
              && PassDraws(Census(pop), RosterOf(pop, DividingStem), draws)
              && r.1.total == counters.total + AcceptedFrom(Census(pop), RosterOf(pop, DividingStem), draws, rates, 0)
    ensures r.1.total <= counters.total + 2 * |RosterOf(pop, DividingStem)|
    ensures mcs % PlotInterval == 0 ==> r.1.perStep == 0
    ensures mcs % PlotInterval != 0 ==> r.1.perStep == counters.perStep + (r.1.total - counters.total)
  {
    var census := Census(pop);
    CensusKeepsRosters(pop, DividingStem);
    CensusKeepsRosters(pop, Dividing);
    CensusKeepsRosters(pop, AllStem);
    assert PartnerPool(census) == PartnerPool(pop);
    assert Stemness(census) == Stemness(pop);
    assert Senescence(census) == Senescence(pop);
    var m := MutationPhase(census, draws, rates);
    (m.cells, Tally(counters, m.count, mcs))
  }

  // ---------------------------------------------------------------------
  // Division
  // ---------------------------------------------------------------------

  /** Parent and child records right after a division. */
  datatype Offspring = Offspring(parent: Cell, child: Cell)

  /** Number of stem cells in a division's outcome. */
  function StemCount(o: Offspring): nat
  {
    (if o.parent.kind == Stem then 1 else 0) + (if o.child.kind == Stem then 1 else 0)
  }

  /** The post-division partition. The parent's target volume is halved.
      In the neutral variant the child is a plain copy. Otherwise a somatic
      parent whose countdown went negative dies, and the child is copied
      from the (possibly dead) parent; a stem parent's child is somatic
      unless the draw `u` falls below `pstem - 0.5`, and the parent itself
      turns somatic when `u` falls below `0.5 - pstem`. The geometric split
      is external: the child copies the parent record, actual volume
      included. */
  function Divide(parent: Cell, childId: nat, u: real, neutral: bool): (r: Offspring)
    ensures r.parent.id == parent.id && r.child.id == childId
    ensures r.child.pstem == parent.pstem && r.child.rho == parent.rho
    ensures r.child.generationsLeft == parent.generationsLeft
    ensures r.parent == parent.(kind := r.parent.kind, targetVolume := r.parent.targetVolume, lambdaVolume := r.parent.lambdaVolume)
    ensures neutral ==> r.parent.kind == parent.kind && r.child.kind == parent.kind
    ensures Dies(parent, neutral) ==>
              && r.parent.kind == Necrotic && r.child.kind == Necrotic
              && r.parent.targetVolume == 0.0 && r.child.targetVolume == 0.0
              && r.parent.lambdaVolume == 100.0 && r.child.lambdaVolume == 100.0
    ensures !Dies(parent, neutral) ==>
              && r.parent.targetVolume + r.child.targetVolume == parent.targetVolume
              && r.parent.targetVolume == r.child.targetVolume
              && r.child.lambdaVolume == r.parent.lambdaVolume == parent.lambdaVolume
    ensures !neutral && parent.kind == Stem ==>
              && (r.child.kind == Stem <==> parent.pstem > 0.5 && u < parent.pstem - 0.5)
              && (r.child.kind == Somatic <==> !(parent.pstem > 0.5 && u < parent.pstem - 0.5))
              && (r.parent.kind == Somatic <==> parent.pstem < 0.5 && u < 0.5 - parent.pstem)
              && (r.parent.kind == Stem <==> !(parent.pstem < 0.5 && u < 0.5 - parent.pstem))
    ensures !neutral && parent.kind != Stem ==> r.child.kind == r.parent.kind
    ensures !neutral && parent.kind == Somatic && !Dies(parent, neutral) ==> r.parent.kind == Somatic
  {
    var halved := parent.(targetVolume := parent.targetVolume / 2.0);
    if neutral then Offspring(halved, halved.(id := childId))
    else
      var p := if Dies(parent, neutral) then Kill(halved) else halved;
      if p.kind == Stem then
        var childKind := if p.pstem > 0.5 && u < p.pstem - 0.5 then Stem else Somatic;
        var parentKind := if p.pstem < 0.5 && u < 0.5 - p.pstem then Somatic else Stem;
        Offspring(p.(kind := parentKind), p.(id := childId, kind := childKind))
      else
        Offspring(p, p.(id := childId))
  }

  /** A somatic cell that has run out of generations dies at division. */
  predicate Dies(parent: Cell, neutral: bool)
  {
    !neutral && parent.kind == Somatic && parent.generationsLeft < 0.0
  }

  /** Stem divisions are symmetric in expectation around `pstem == 0.5`: a
      stem parent leaves two stem cells only when `pstem > 0.5`, none only
      when `pstem < 0.5`, and exactly one (itself) when `pstem == 0.5`. */
  lemma StemDivisionBalance(parent: Cell, childId: nat, u: real)
    requires parent.kind == Stem
    ensures var o := Divide(parent, childId, u, false);
            && (StemCount(o) == 2 ==> parent.pstem > 0.5)
            && (StemCount(o) == 0 ==> parent.pstem < 0.5)
            && (parent.pstem == 0.5 ==> o.parent.kind == Stem && o.child.kind == Somatic)
            && (parent.pstem >= 0.5 ==> o.parent.kind == Stem)
            && (parent.pstem <= 0.5 ==> o.child.kind == Somatic)
  {
  }

  /** The parent records after the divisions that close the step: every cell
      larger than 25 divides, whatever its type, necrotic cells included.
      The differentiation draws and the children's ids are aligned with the
      cell list; a cell that does not divide ignores both. */
  function Parents(pop: seq<Cell>, us: seq<real>, ids: seq<nat>, neutral: bool): (r: seq<Cell>)
    requires |us| == |pop| && |ids| == |pop|
    ensures |r| == |pop|
    ensures forall i :: 0 <= i < |pop| && !Eligible(pop[i]) ==> r[i] == pop[i]
    ensures forall i :: 0 <= i < |pop| && Eligible(pop[i]) ==> r[i] == Divide(pop[i], ids[i], us[i], neutral).parent
  {
    seq(|pop|, i requires 0 <= i < |pop| =>
      if Eligible(pop[i]) then Divide(pop[i], ids[i], us[i], neutral).parent else pop[i])
  }

  /** The children of those divisions, in cell-list order. */
  function Children(pop: seq<Cell>, us: seq<real>, ids: seq<nat>, neutral: bool): (r: seq<Cell>)
    requires |us| == |pop| && |ids| == |pop|
    ensures |r| == CountIn(pop, Dividing)
  {
    if |pop| == 0 then []
    else
      var rest := Children(pop[1..], us[1..], ids[1..], neutral);
      if Eligible(pop[0]) then [Divide(pop[0], ids[0], us[0], neutral).child] + rest else rest
  }

  /** Every child is the child record of a dividing cell's division. */
  lemma {:induction false} EveryChildHasADividingParent(pop: seq<Cell>, us: seq<real>, ids: seq<nat>, neutral: bool, k: nat)
    requires |us| == |pop| && |ids| == |pop|
    requires k < |Children(pop, us, ids, neutral)|
    ensures exists i :: 0 <= i < |pop| && Eligible(pop[i]) && Children(pop, us, ids, neutral)[k] == Divide(pop[i], ids[i], us[i], neutral).child
  {
    var rest := Children(pop[1..], us[1..], ids[1..], neutral);
    if Eligible(pop[0]) && k == 0 {
      assert Children(pop, us, ids, neutral)[k] == Divide(pop[0], ids[0], us[0], neutral).child;
    } else {
      var k' := if Eligible(pop[0]) then k - 1 else k;
      assert Children(pop, us, ids, neutral)[k] == rest[k'];
      EveryChildHasADividingParent(pop[1..], us[1..], ids[1..], neutral, k');
      var j :| 0 <= j < |pop[1..]| && Eligible(pop[1..][j]) && rest[k'] == Divide(pop[1..][j], ids[1..][j], us[1..][j], neutral).child;
      assert pop[j + 1] == pop[1..][j] && ids[j + 1] == ids[1..][j] && us[j + 1] == us[1..][j];
    }
  }

  /** The divisions that close the mitosis step: parents updated in place,
      one child appended per cell of the dividing roster. */
  function DivideAll(pop: seq<Cell>, us: seq<real>, ids: seq<nat>, neutral: bool): (r: seq<Cell>)
    requires |us| == |pop| && |ids| == |pop|
    ensures |r| == |pop| + |RosterOf(pop, Dividing)|
    ensures r[..|pop|] == Parents(pop, us, ids, neutral)
    ensures r[|pop|..] == Children(pop, us, ids, neutral)
  {
    RosterFromLength(pop, Dividing, 0);
    assert pop[0..] == pop;
    Parents(pop, us, ids, neutral) + Children(pop, us, ids, neutral)
  }

  /** When no dividing cell dies of senescence, the divisions only split
      target volumes: the population total is what it was. */
  lemma DivideAllConservesTargetVolume(pop: seq<Cell>, us: seq<real>, ids: seq<nat>, neutral: bool)
    requires |us| == |pop| && |ids| == |pop|
    requires forall i :: 0 <= i < |pop| && Eligible(pop[i]) ==> !Dies(pop[i], neutral)
    ensures Sum(TargetVolumes(DivideAll(pop, us, ids, neutral))) == Sum(TargetVolumes(pop))
  {
    var r := DivideAll(pop, us, ids, neutral);
    assert r == Parents(pop, us, ids, neutral) + Children(pop, us, ids, neutral);
    assert TargetVolumes(r) == TargetVolumes(Parents(pop, us, ids, neutral)) + TargetVolumes(Children(pop, us, ids, neutral));
    SumConcat(TargetVolumes(Parents(pop, us, ids, neutral)), TargetVolumes(Children(pop, us, ids, neutral)));
    SplitConservesTargetVolume(pop, us, ids, neutral);
  }

  lemma {:induction false} SplitConservesTargetVolume(pop: seq<Cell>, us: seq<real>, ids: seq<nat>, neutral: bool)
    requires |us| == |pop| && |ids| == |pop|
    requires forall i :: 0 <= i < |pop| && Eligible(pop[i]) ==> !Dies(pop[i], neutral)
    ensures Sum(TargetVolumes(Parents(pop, us, ids, neutral))) + Sum(TargetVolumes(Children(pop, us, ids, neutral)))
            == Sum(TargetVolumes(pop))
  {
    if |pop| > 0 {
      var ps := Parents(pop, us, ids, neutral);
      var cs := Children(pop, us, ids, neutral);
      var rest := Children(pop[1..], us[1..], ids[1..], neutral);
      assert TargetVolumes(ps)[1..] == TargetVolumes(Parents(pop[1..], us[1..], ids[1..], neutral));
      assert TargetVolumes(pop)[1..] == TargetVolumes(pop[1..]);
      SplitConservesTargetVolume(pop[1..], us[1..], ids[1..], neutral);
      if Eligible(pop[0]) {
        var o := Divide(pop[0], ids[0], us[0], neutral);
        assert cs == [o.child] + rest;
        assert TargetVolumes(cs) == [o.child.targetVolume] + TargetVolumes(rest);
        assert TargetVolumes(cs)[1..] == TargetVolumes(rest);
      } else {
        assert cs == rest;
      }
    }
  }

  /** A necrotic cell larger than 25 is in the dividing roster too, and its
      division leaves two necrotic cells. */
  lemma NecroticCellsDivideToo()
    ensures var c := Cell(0, Necrotic, 30.0, 0.0, 0.0, 100.0, 0.5, 5.0, 5.0, 0.0);
            var r := DivideAll([c], [0.0], [1], false);
            && |r| == 2
            && r[0].kind == Necrotic && r[1].kind == Necrotic
            && NecroticCount(r) == NecroticCount([c]) + 1
  {
    var c := Cell(0, Necrotic, 30.0, 0.0, 0.0, 100.0, 0.5, 5.0, 5.0, 0.0);
    assert RosterOf([c], Dividing) == [0] by {
      assert RosterFrom([c], Dividing, 1) == [];
    }
    var r := DivideAll([c], [0.0], [1], false);
    assert r[1..][1..] == [];
  }
}

=== FILE: evo_treatment.dfy ===
/** The death steppable of the evolutionary model: simulated treatments.
    One treatment is selected on the steering panel. Constant killing acts
    on every step with its efficacy divided by 1000; surgery acts every 2000
    steps and the three radiation schedules every 1000 steps. Every kill
    goes through `Kill` and adds one to the per-step kill counter.

    The uniform draws are inputs, one per cell and pass, aligned with the
    cell list; a cell the pass does not consider ignores its draw. */
module EvoTreatment {
  import opened EvoCells

  /** Treatments of the steering panel. `NoTreatment` stands for both "None"
      and the panel's placeholder entry; `Chemotherapy` stands for the
      chemotherapy entries, which are not implemented and kill nothing. */
  datatype Treatment =
    | NoTreatment
    | ConstantAll
    | ConstantSomatic
    | Surgical
    | RadiationSimple
    | RadiationStemProtected
    | RadiationQuiescentProtected
    | Chemotherapy

  /** Divisor applied to the efficacy of constant killing. */
  const KillReduction: real := 1000.0
  /** Period of surgery, in steps. */
  const SurgeryPeriod: nat := 2000
  /** Period of every radiation schedule, in steps. */
  const RadiationPeriod: nat := 1000
  /** Relative efficacy on the protected group. */
  const RadiationProtection: real := 0.5
  const QuiescenceProtection: real := 0.5
  /** Lattice width used to turn the efficacy into a surgical margin. */
  const LatticeWidth: real := 128.0

  /** One pass over the cell list. */
  datatype KillRule =
      /** Each somatic cell (and each stem cell when `stemToo`) dies when its
          draw falls below `p`. */
    | Random(stemToo: bool, p: real)
      /** Every cell, of any type, left of the margin dies. */
    | Resection(margin: real)
      /** Stem and somatic cells die when the draw falls below `p` if their
          pressure is under the threshold, below `p * protection` otherwise. */
    | Quiescent(p: real, protection: real)

  /** Whether a pass kills cell `c` given its draw `u`. */
  predicate Hits(rule: KillRule, c: Cell, u: real)
  {
    match rule
    case Random(stemToo, p) => (c.kind == Somatic || (stemToo && c.kind == Stem)) && u < p
    case Resection(margin) => c.xCom < margin
    case Quiescent(p, protection) =>
      Proliferating(c) && (if c.pressure < PressureThreshold then u < p else u < p * protection)
  }

  /** A population after a treatment, with the number of kills booked. */
  datatype Treated = Treated(cells: seq<Cell>, kills: nat)

  /** Every index moved one place to the right. */
  function Shift(s: seq<nat>): (t: seq<nat>)
    ensures |t| == |s|
    ensures forall k :: 0 <= k < |s| ==> t[k] == s[k] + 1
    ensures forall i: nat :: i in t <==> 0 < i && i - 1 in s
  {
    var t := seq(|s|, k requires 0 <= k < |s| => s[k] + 1);
    assert forall i: nat :: 0 < i && i - 1 in s ==> i in t by {
      forall i: nat | 0 < i && i - 1 in s
        ensures i in t
      {
        var k :| 0 <= k < |s| && s[k] == i - 1;
        assert t[k] == i;
      }
    }
    t
  }

  /** Indices of the cells a pass hits: each hit cell once, in list order. */
  function HitIndices(pop: seq<Cell>, rule: KillRule, draws: seq<real>): (idx: seq<nat>)
    requires |draws| == |pop|
    ensures forall i :: 0 <= i < |pop| ==> (i in idx <==> Hits(rule, pop[i], draws[i]))
    ensures forall k :: 0 <= k < |idx| ==> idx[k] < |pop|
    ensures forall k, l :: 0 <= k < l < |idx| ==> idx[k] < idx[l]
    decreases |pop|
  {
    if |pop| == 0 then []
    else
      var rest := Shift(HitIndices(pop[1..], rule, draws[1..]));
      if Hits(rule, pop[0], draws[0]) then [0] + rest else rest
  }

  /** One pass: every hit cell is killed and booked, every other cell is left
      as it was. The counter rises by one per hit cell, whatever the cell's
      type was. */
  function KillPass(pop: seq<Cell>, rule: KillRule, draws: seq<real>): (r: Treated)
    requires |draws| == |pop|
    ensures |r.cells| == |pop|
    ensures forall i :: 0 <= i < |pop| ==>
              r.cells[i] == (if Hits(rule, pop[i], draws[i]) then Kill(pop[i]) else pop[i])
    ensures r.kills == |HitIndices(pop, rule, draws)|
    ensures r.kills <= |pop|
    decreases |pop|
  {
    if |pop| == 0 then Treated([], 0)
    else
      var rest := KillPass(pop[1..], rule, draws[1..]);
      if Hits(rule, pop[0], draws[0]) then Treated([Kill(pop[0])] + rest.cells, rest.kills + 1)
      else Treated([pop[0]] + rest.cells, rest.kills)
  }

  /** A pass that only targets living cells books exactly the cells it turns
      necrotic: the kill counter rises by one per new necrotic cell. */
  lemma {:induction false} KillPassBooksEveryDeath(pop: seq<Cell>, rule: KillRule, draws: seq<real>)
    requires |draws| == |pop|
    requires !rule.Resection?
    ensures NecroticCount(KillPass(pop, rule, draws).cells) == NecroticCount(pop) + KillPass(pop, rule, draws).kills
    decreases |pop|
  {
    if |pop| > 0 {
      var r := KillPass(pop, rule, draws);
      assert r.cells[1..] == KillPass(pop[1..], rule, draws[1..]).cells;
      KillPassBooksEveryDeath(pop[1..], rule, draws[1..]);
    }
  }

  /** Surgery also hits cells that are already necrotic and books them
      again, so its counter can only overstate the new deaths. */
  lemma {:induction false} ResectionMayOverbook(pop: seq<Cell>, margin: real, draws: seq<real>)
    requires |draws| == |pop|
    ensures NecroticCount(KillPass(pop, Resection(margin), draws).cells)
            <= NecroticCount(pop) + KillPass(pop, Resection(margin), draws).kills
    decreases |pop|
  {
    if |pop| > 0 {
      var r := KillPass(pop, Resection(margin), draws);
      assert r.cells[1..] == KillPass(pop[1..], Resection(margin), draws[1..]).cells;
      ResectionMayOverbook(pop[1..], margin, draws[1..]);
    }
  }

  /** The overstatement does happen: a cell that is already necrotic and lies
      left of the margin is booked as a kill, yet the number of necrotic
      cells does not change. */
  lemma ResectionBooksAlreadyNecroticCell()
    ensures var c := Cell(0, Necrotic, 10.0, 0.0, 0.0, 100.0, 0.5, 5.0, 5.0, 0.0);
            var r := KillPass([c], Resection(1.0), [0.0]);
            && r.kills == 1
            && NecroticCount(r.cells) == NecroticCount([c])
            && NecroticCount(r.cells) < NecroticCount([c]) + r.kills
  {
  }

  /** True on the steps a periodic treatment acts on. */
  predicate OnSchedule(mcs: nat, period: nat)
  {
    period > 0 && mcs % period == 0
  }

  /** One run of the death steppable at step `mcs` with the panel efficacy.
      `first` holds the draws of the first pass, `second` those of the
      second pass of the stem-protected schedule. */
  function Treat(t: Treatment, pop: seq<Cell>, mcs: nat, efficacy: real, first: seq<real>, second: seq<real>): (r: Treated)
    requires |first| == |pop| && |second| == |pop|
    ensures |r.cells| == |pop|
    ensures forall i :: 0 <= i < |pop| ==> r.cells[i] == pop[i] || r.cells[i] == Kill(pop[i])
    ensures r.kills <= 2 * |pop|
    ensures t == NoTreatment || t == Chemotherapy ==> r == Treated(pop, 0)
    ensures t == Surgical && !OnSchedule(mcs, SurgeryPeriod) ==> r == Treated(pop, 0)
    ensures ((t == RadiationSimple || t == RadiationStemProtected || t == RadiationQuiescentProtected)
             && !OnSchedule(mcs, RadiationPeriod)) ==> r == Treated(pop, 0)
    ensures t != Surgical ==> NecroticCount(r.cells) == NecroticCount(pop) + r.kills
    ensures t == Surgical && OnSchedule(mcs, SurgeryPeriod) ==>
              r.kills == |HitIndices(pop, Resection(efficacy * LatticeWidth), first)|
    ensures t == ConstantAll ==>
              forall i :: 0 <= i < |pop| ==>
                r.cells[i] == (if Proliferating(pop[i]) && first[i] < efficacy / KillReduction then Kill(pop[i]) else pop[i])
    ensures t == ConstantSomatic ==>
              forall i :: 0 <= i < |pop| ==>
                r.cells[i] == (if pop[i].kind == Somatic && first[i] < efficacy / KillReduction then Kill(pop[i]) else pop[i])
    ensures t == RadiationSimple && OnSchedule(mcs, RadiationPeriod) ==>
              forall i :: 0 <= i < |pop| ==>
                r.cells[i] == (if Proliferating(pop[i]) && first[i] < efficacy then Kill(pop[i]) else pop[i])
    ensures t == RadiationQuiescentProtected && OnSchedule(mcs, RadiationPeriod) ==>
              forall i :: 0 <= i < |pop| ==>
                r.cells[i] == (if Proliferating(pop[i])
                                  && first[i] < (if pop[i].pressure < PressureThreshold then efficacy else efficacy * QuiescenceProtection)
                               then Kill(pop[i]) else pop[i])
    ensures t == Surgical && OnSchedule(mcs, SurgeryPeriod) ==>
              forall i :: 0 <= i < |pop| ==>
                r.cells[i] == (if pop[i].xCom < efficacy * LatticeWidth then Kill(pop[i]) else pop[i])
  {
    match t
    case NoTreatment => Treated(pop, 0)
    case Chemotherapy => Treated(pop, 0)
    case ConstantAll =>
      KillPassBooksEveryDeath(pop, Random(true, efficacy / KillReduction), first);
      KillPass(pop, Random(true, efficacy / KillReduction), first)
    case ConstantSomatic =>
      KillPassBooksEveryDeath(pop, Random(false, efficacy / KillReduction), first);
      KillPass(pop, Random(false, efficacy / KillReduction), first)
    case Surgical =>
      if OnSchedule(mcs, SurgeryPeriod) then KillPass(pop, Resection(efficacy * LatticeWidth), first)
      else Treated(pop, 0)
    case RadiationSimple =>
      if OnSchedule(mcs, RadiationPeriod) then
        KillPassBooksEveryDeath(pop, Random(true, efficacy), first);
        KillPass(pop, Random(true, efficacy), first)
      else Treated(pop, 0)
    case RadiationStemProtected =>
      if OnSchedule(mcs, RadiationPeriod) then
        var a := KillPass(pop, Random(false, efficacy), first);
        KillPassBooksEveryDeath(pop, Random(false, efficacy), first);
        var b := KillPass(a.cells, Random(false, efficacy * RadiationProtection), second);
        KillPassBooksEveryDeath(a.cells, Random(false, efficacy * RadiationProtection), second);
        Treated(b.cells, a.kills + b.kills)
      else Treated(pop, 0)
    case RadiationQuiescentProtected =>
      if OnSchedule(mcs, RadiationPeriod) then
        KillPassBooksEveryDeath(pop, Quiescent(efficacy, QuiescenceProtection), first);
        KillPass(pop, Quiescent(efficacy, QuiescenceProtection), first)
      else Treated(pop, 0)
  }

  /** Every treated cell ends necrotic with target volume 0 and constraint
      strength 100, whatever the treatment. */
  lemma KilledCellsCollapse(t: Treatment, pop: seq<Cell>, mcs: nat, efficacy: real, first: seq<real>, second: seq<real>, i: nat)
    requires |first| == |pop| && |second| == |pop| && i < |pop|
    ensures var c := Treat(t, pop, mcs, efficacy, first, second).cells[i];
            c != pop[i] ==> c.kind == Necrotic && c.targetVolume == 0.0 && c.lambdaVolume == 100.0
  {
  }

  /** The stem-protected schedule runs its second pass over somatic cells
      again, so stem cells are never killed by it (rather than killed at
      half the rate). */
  lemma StemProtectedSparesEveryStemCell(pop: seq<Cell>, mcs: nat, efficacy: real, first: seq<real>, second: seq<real>, i: nat)
    requires |first| == |pop| && |second| == |pop| && i < |pop|
    requires pop[i].kind == Stem
    ensures Treat(RadiationStemProtected, pop, mcs, efficacy, first, second).cells[i] == pop[i]
  {
  }

  /** A somatic cell dies under the stem-protected schedule exactly when one
      of its two draws falls below its pass's threshold. */
  lemma StemProtectedSomaticDeath(pop: seq<Cell>, mcs: nat, efficacy: real, first: seq<real>, second: seq<real>, i: nat)
    requires |first| == |pop| && |second| == |pop| && i < |pop|
    requires pop[i].kind == Somatic && OnSchedule(mcs, RadiationPeriod)
    ensures Treat(RadiationStemProtected, pop, mcs, efficacy, first, second).cells[i].kind == Necrotic
            <==> first[i] < efficacy || second[i] < efficacy * RadiationProtection
  {
  }
}

=== FILE: lattice.dfy ===
/** Reading the oxygen field at a cell's centre of mass.

    Every steppable that consults the field rounds the centre of mass to the
    nearest voxel with Python's `round` (ties go to the even neighbour) and
    then clamps each axis into the lattice, so an out-of-range position is
    moved to the nearest border voxel rather than skipped. The field itself
    is produced by an external diffusion solver and appears here as a total
    function from voxels to concentrations. */
module Lattice {

  /** A centre of mass, in lattice units. */
  datatype Point = Point(x: real, y: real, z: real)

  /** Lattice extent along each axis. */
  datatype Dims = Dims(x: int, y: int, z: int)

  /** Integer lattice coordinates. */
  datatype Voxel = Voxel(x: int, y: int, z: int)

  /** A snapshot of a scalar field, as delivered by the diffusion solver. */
  type Field = Voxel -> real

  /** Round to the nearest integer, ties to the even neighbour. */
  function RoundHalfEven(v: real): (n: int)
    ensures n as real - v <= 0.5 && v - n as real <= 0.5
    ensures n as real - v == 0.5 || v - n as real == 0.5 ==> n % 2 == 0
  {
    var f := v.Floor;
    var frac := v - f as real;
    if frac < 0.5 then f
    else if frac > 0.5 then f + 1
    else if f % 2 == 0 then f
    else f + 1
  }

  /** `max(0, min(int(round(coord)), size - 1))`: the lattice index used for
      one axis. */
  function AxisIndex(coord: real, size: int): (i: int)
    ensures size >= 1 ==> 0 <= i < size
    ensures 0 <= RoundHalfEven(coord) < size ==> i == RoundHalfEven(coord)
    ensures RoundHalfEven(coord) < 0 ==> i == 0
    ensures size >= 1 && RoundHalfEven(coord) >= size ==> i == size - 1
  {
    var r := RoundHalfEven(coord);
    var upper := if r < size - 1 then r else size - 1;
    if upper > 0 then upper else 0
  }

  /** Among all valid indices of an axis, the clamped one is nearest to the
      rounded coordinate: clamping moves a position no further than needed. */
  lemma AxisIndexIsNearest(coord: real, size: int, k: int)
    requires 0 <= k < size
    ensures var r := RoundHalfEven(coord);
            var i := AxisIndex(coord, size);
            (if i >= r then i - r else r - i) <= (if k >= r then k - r else r - k)
  {
  }

  /** The voxel whose field value a cell at `p` sees. */
  function SampleVoxel(p: Point, d: Dims): (v: Voxel)
    ensures d.x >= 1 && d.y >= 1 && d.z >= 1 ==> InLattice(v, d)
    ensures InLattice(Voxel(RoundHalfEven(p.x), RoundHalfEven(p.y), RoundHalfEven(p.z)), d)
            ==> v == Voxel(RoundHalfEven(p.x), RoundHalfEven(p.y), RoundHalfEven(p.z))
    ensures v == Voxel(AxisIndex(p.x, d.x), AxisIndex(p.y, d.y), AxisIndex(p.z, d.z))
  {
    Voxel(AxisIndex(p.x, d.x), AxisIndex(p.y, d.y), AxisIndex(p.z, d.z))
  }

  predicate InLattice(v: Voxel, d: Dims)
  {
    0 <= v.x < d.x && 0 <= v.y < d.y && 0 <= v.z < d.z
  }

  /** The field value at the cell's (rounded, clamped) centre of mass. */
  function Sample(f: Field, p: Point, d: Dims): real
  {
    f(SampleVoxel(p, d))
  }
}

=== FILE: real_seq.dfy ===
/** Totals over sequences of reals: the bookkeeping behind every
    conservation statement of the model. */
module RealSeq {

  /** Sum of all elements, folded from the front. */
  function Sum(s: seq<real>): real
  {
    if |s| == 0 then 0.0 else s[0] + Sum(s[1..])
  }

  /** Overwriting one element changes the total by exactly the difference. */
  lemma {:induction false} SumUpdate(s: seq<real>, i: nat, v: real)
    requires i < |s|
    ensures Sum(s[i := v]) == Sum(s) - s[i] + v
  {
    if i == 0 {
      assert s[i := v][1..] == s[1..];
    } else {
      assert s[i := v][1..] == s[1..][i - 1 := v];
      SumUpdate(s[1..], i - 1, v);
    }
  }

  /** The total of a concatenation is the sum of the totals. */
  lemma {:induction false} SumConcat(a: seq<real>, b: seq<real>)
    ensures Sum(a + b) == Sum(a) + Sum(b)
  {
    if |a| == 0 {
      assert a + b == b;
    } else {
      assert (a + b)[1..] == a[1..] + b;
      SumConcat(a[1..], b);
    }
  }
}

=== FILE: spheroid.dfy ===
/** The cell record shared by the two oxygen-driven spheroid variants, the
    halving division partition they both use, and the per-phenotype census.

    A cell is Normoxic, Hypoxic or Necrotic; the medium surrounding the
    spheroid also appears in the engine's type table and every steppable
    skips it. The engine's cell list never yields the medium, so those
    skips are dead branches; `Medium` is kept so that the model can state
    them. `volume` and `com` (centre of mass) belong to the lattice
    engine and are read-only here. */
module Spheroid {
  import opened Lattice
  import opened RealSeq

  datatype Phenotype = Medium | Normoxic | Hypoxic | Necrotic

  datatype Cell = Cell(
    kind: Phenotype,
    volume: real,        // actual volume, owned by the lattice engine
    com: Point,          // centre of mass, owned by the lattice engine
    targetVolume: real,
    lambdaVolume: real,
    lambdaSurface: real
  )

  /** A cell that grows and may divide: neither medium nor necrotic. */
  predicate Living(c: Cell)
  {
    c.kind == Normoxic || c.kind == Hypoxic
  }

  /** Parent and child records right after a division. */
  datatype Offspring = Offspring(parent: Cell, child: Cell)

  /** The partition both variants apply after the engine has split a cell:
      the parent's target volume is halved, the child is cloned from the
      parent, given the same halved target volume and the parent's type. */
  function Split(parent: Cell): (r: Offspring)
    ensures r.parent.targetVolume + r.child.targetVolume == parent.targetVolume
    ensures r.parent.targetVolume == r.child.targetVolume
    ensures r.child.kind == r.parent.kind == parent.kind
    ensures r.parent == parent.(targetVolume := r.parent.targetVolume)
    ensures r.child == r.parent
  {
    var halved := parent.(targetVolume := parent.targetVolume * 0.5);
    // the clone, then the explicit copies of target volume and type
    Offspring(halved, halved)
  }

  /** Number of `true` entries. */
  function CountTrue(sel: seq<bool>): nat
    ensures CountTrue(sel) <= |sel|
  {
    if |sel| == 0 then 0 else (if sel[0] then 1 else 0) + CountTrue(sel[1..])
  }

  /** Every cell with `sel` set has been replaced by its halved parent. */
  function Parents(pop: seq<Cell>, sel: seq<bool>): (r: seq<Cell>)
    requires |sel| == |pop|
    ensures |r| == |pop|
    ensures forall i :: 0 <= i < |pop| ==> r[i] == (if sel[i] then Split(pop[i]).parent else pop[i])
  {
    if |pop| == 0 then [] else [if sel[0] then Split(pop[0]).parent else pop[0]] + Parents(pop[1..], sel[1..])
  }

  /** The children of the cells with `sel` set, in cell-list order. */
  function Children(pop: seq<Cell>, sel: seq<bool>): (r: seq<Cell>)
    requires |sel| == |pop|
    ensures |r| == CountTrue(sel)
  {
    if |pop| == 0 then []
    else if sel[0] then [Split(pop[0]).child] + Children(pop[1..], sel[1..])
    else Children(pop[1..], sel[1..])
  }

  /** Every appended child is the clone of a cell that was selected. */
  lemma {:induction false} EveryChildHasAParent(pop: seq<Cell>, sel: seq<bool>, k: nat)
    requires |sel| == |pop| && k < |Children(pop, sel)|
    ensures exists i :: 0 <= i < |pop| && sel[i] && Children(pop, sel)[k] == Split(pop[i]).child
  {
    if sel[0] && k == 0 {
      assert sel[0] && Children(pop, sel)[0] == Split(pop[0]).child;
    } else {
      var k' := if sel[0] then k - 1 else k;
      assert Children(pop, sel)[k] == Children(pop[1..], sel[1..])[k'];
      EveryChildHasAParent(pop[1..], sel[1..], k');
      var j :| 0 <= j < |pop[1..]| && sel[1..][j] && Children(pop[1..], sel[1..])[k'] == Split(pop[1..][j]).child;
      assert sel[j + 1] && Children(pop, sel)[k] == Split(pop[j + 1]).child;
    }
  }

  /** The population after every selected cell has divided: parents stay in
      place with their target volume halved, children are appended. */
  function DivideSelected(pop: seq<Cell>, sel: seq<bool>): (r: seq<Cell>)
    requires |sel| == |pop|
    ensures |r| == |pop| + CountTrue(sel)
    ensures forall i :: 0 <= i < |pop| ==> r[i] == (if sel[i] then Split(pop[i]).parent else pop[i])
    ensures r[|pop|..] == Children(pop, sel)
  {
    Parents(pop, sel) + Children(pop, sel)
  }

  /** Target volumes, for conservation statements. */
  function Targets(pop: seq<Cell>): (s: seq<real>)
    ensures |s| == |pop|
    ensures forall i :: 0 <= i < |pop| ==> s[i] == pop[i].targetVolume
  {
    seq(|pop|, i requires 0 <= i < |pop| => pop[i].targetVolume)
  }

  lemma {:induction false} PartitionConserves(pop: seq<Cell>, sel: seq<bool>)
    requires |sel| == |pop|
    ensures Sum(Targets(Parents(pop, sel))) + Sum(Targets(Children(pop, sel))) == Sum(Targets(pop))
  {
    if |pop| > 0 {
      PartitionConserves(pop[1..], sel[1..]);
      assert Targets(Parents(pop, sel))[1..] == Targets(Parents(pop[1..], sel[1..]));
      assert Targets(pop)[1..] == Targets(pop[1..]);
      var rest := Children(pop[1..], sel[1..]);
      if sel[0] {
        assert Children(pop, sel) == [Split(pop[0]).child] + rest;
        assert Targets(Children(pop, sel))[1..] == Targets(rest);
      } else {
        assert Children(pop, sel) == rest;
      }
    }
  }

  /** Divisions are exact: the total target volume of the population is the
      same before and after any set of divisions. */
  lemma DivisionConservesTargetVolume(pop: seq<Cell>, sel: seq<bool>)
    requires |sel| == |pop|
    ensures Sum(Targets(DivideSelected(pop, sel))) == Sum(Targets(pop))
  {
    PartitionConserves(pop, sel);
    assert Targets(DivideSelected(pop, sel)) == Targets(Parents(pop, sel)) + Targets(Children(pop, sel));
    SumConcat(Targets(Parents(pop, sel)), Targets(Children(pop, sel)));
  }

  // ---------------------------------------------------------------------
  // Per-phenotype census
  // ---------------------------------------------------------------------

  /** Number of cells of phenotype `k`. */
  function CountKind(pop: seq<Cell>, k: Phenotype): nat
  {
    if |pop| == 0 then 0 else (if pop[0].kind == k then 1 else 0) + CountKind(pop[1..], k)
  }

  /** The phenotypes of a population, in order. */
  function Kinds(pop: seq<Cell>): (s: seq<Phenotype>)
    ensures |s| == |pop|
    ensures forall i :: 0 <= i < |pop| ==> s[i] == pop[i].kind
  {
    seq(|pop|, i requires 0 <= i < |pop| => pop[i].kind)
  }

  /** The counter agrees with the multiplicity of the phenotype among the
      population's phenotypes. */
  lemma {:induction false} CountKindIsMultiplicity(pop: seq<Cell>, k: Phenotype)
    ensures CountKind(pop, k) == multiset(Kinds(pop))[k]
  {
    if |pop| > 0 {
      assert Kinds(pop) == [pop[0].kind] + Kinds(pop[1..]);
      CountKindIsMultiplicity(pop[1..], k);
    }
  }

  lemma {:induction false} CountKindConcat(a: seq<Cell>, b: seq<Cell>, k: Phenotype)
    ensures CountKind(a + b, k) == CountKind(a, k) + CountKind(b, k)
  {
    if |a| == 0 {
      assert a + b == b;
    } else {
      assert (a + b)[1..] == a[1..] + b;
      CountKindConcat(a[1..], b, k);
    }
  }

  /** Populations with the same phenotypes, cell by cell, have the same
      counts. */
  lemma {:induction false} CountKindOfSameKinds(a: seq<Cell>, b: seq<Cell>, k: Phenotype)
    requires |a| == |b| && forall i :: 0 <= i < |a| ==> a[i].kind == b[i].kind
    ensures CountKind(a, k) == CountKind(b, k)
  {
    if |a| > 0 {
      CountKindOfSameKinds(a[1..], b[1..], k);
    }
  }

  lemma {:induction false} ChildrenAvoidUnselectedKind(pop: seq<Cell>, sel: seq<bool>, k: Phenotype)
    requires |sel| == |pop| && forall i :: 0 <= i < |pop| && sel[i] ==> pop[i].kind != k
    ensures CountKind(Children(pop, sel), k) == 0
  {
    if |pop| > 0 {
      ChildrenAvoidUnselectedKind(pop[1..], sel[1..], k);
      if sel[0] {
        assert Children(pop, sel)[1..] == Children(pop[1..], sel[1..]);
      }
    }
  }

  /** A division only ever clones the phenotype of a dividing cell: when no
      cell of phenotype `k` is selected, the number of such cells is the same
      before and after. */
  lemma DivisionKeepsUnselectedKind(pop: seq<Cell>, sel: seq<bool>, k: Phenotype)
    requires |sel| == |pop| && forall i :: 0 <= i < |pop| && sel[i] ==> pop[i].kind != k
    ensures CountKind(DivideSelected(pop, sel), k) == CountKind(pop, k)
  {
    CountKindConcat(Parents(pop, sel), Children(pop, sel), k);
    CountKindOfSameKinds(Parents(pop, sel), pop, k);
    ChildrenAvoidUnselectedKind(pop, sel, k);
  }

  /** Every cell has exactly one phenotype, so the four counts add up to the
      population size. */
  lemma {:induction false} CountsPartition(pop: seq<Cell>)
    ensures CountKind(pop, Medium) + CountKind(pop, Normoxic) + CountKind(pop, Hypoxic) + CountKind(pop, Necrotic) == |pop|
  {
    if |pop| > 0 {
      CountsPartition(pop[1..]);
    }
  }
}

=== FILE: wrappers.dfy ===
/** Failure-compatible optional value, used where the simulation either has
    no value to offer (no oxygen field attached) or cannot complete a
    computation (a division by zero in a growth law). */
module Wrappers {

  datatype Option<+T> = None | Some(value: T)
}
